=== FILE: README.md ===
# UniAIMS front-end logic in Dafny

UniAIMS is a mock web front-end for microscopy image analysis, written in React
and TypeScript. It has a dashboard of analysis and fine-tuning tasks, an upload
page, particle and fiber recognition workspaces with a pan/zoom canvas,
analysis views, data-batch pages and a fine-tuning workspace. Behind the
rendering sit small pieces of pure logic, and this project models them as
Dafny functions over immutable data and proves what they guarantee:

- **Task-list filter.** The dashboard's task-list filter (`Dashboard`).
- **Image selections.** The selection lists of the four analysis views
  (`Selection`, `AttributeAnalysis`, `ComparisonAnalysis`,
  `CorrelationAnalysis`, `TaskComparison`).
- **Chart and line data.** The chart data derived from those selections:
  cumulative histogram, violin summaries and the sampled regression line.
- **Pan/zoom canvas.** The canvas state machine (`Canvas`).
- **Navigation state.**
  - the sidebar's sticky particle/fiber mode and its highlighting rules (`Sidebar`);
  - the collapse context (`SidebarContext`);
  - the route table with its "dashboard vs. workstation" grouping and its redirects (`Routes`);
  - the footer's and header's own grouping tests (`Footer`, `Header`).
- **Small pages.**
  - the upload page's type/mode invariant (`Upload`);
  - the batch-creation file list (`CreateBatch`);
  - the fine-tuning tab dispatch and training curve (`FineTuning`);
  - the batch task list (`BatchTasks`).

**Shared modules.**
- `Wrappers` gives `Option` and `Result`.
- `Seqs` gives order-preserving filtering and index removal.
- `Text` gives ASCII lower-casing, `startsWith` and `includes`.
- `QueryParams` models the query string as the ordered name/value list of
  `URLSearchParams`, with `get` and `set` as the WHATWG URL Standard defines
  them (section "URLSearchParams class"). It also models the
  `get(name) || fallback` idiom: JavaScript's `||` replaces an empty value as
  well as a missing one.

**How inputs are modelled.**
- Navigation is the target path string.
- The browser's local storage is the `stored` field of the sidebar state.
- Random draws and the outputs of `Math.exp` are inputs: draw records, or
  functions from the epoch to a real.
- Coordinates and percentages are exact `real`s.

**Quirks of the code.**
- Three controls navigate to `/particles` and `/fibers`:
  - the dashboard's analysis task cards (src/features/dashboard/DashboardView.tsx:237-275);
  - the upload page's start button (src/features/dashboard/UploadView.tsx:79-83);
  - the sidebar's particle and fiber items (src/components/Sidebar.tsx:150-159).

  The route table (src/App.tsx:38-63) serves no page at either path and has
  no catch-all. The sidebar belongs to the workspace layout
  (src/layouts/MainLayout.tsx:16), so it is not on screen there and its mode
  effect does not run. `Routes.ModePathsUnrouted` states that no route has
  either path. What the model says about these targets concerns only the
  sidebar's prefix tests applied to the path string.
- The sidebar sets its mode only for paths that start with `/particles` or
  `/fibers` (src/components/Sidebar.tsx:57-66). The routed recognition pages
  live at `/<taskId>/particles` and `/<taskId>/fibers` (src/App.tsx:52-53).
  They set a mode only when the task id itself begins with `particles` or
  `fibers`: `/fibers/particles` sets the fiber mode. `Sidebar.RoutedModePaths`
  states this for every route. `Sidebar.RoutedTaskPathKeepsMode` and
  `BatchTasks.MockParticleTask` state it for the batch page's own link
  `/T-1029/particles`.
- The three "is dashboard" tests disagree: the header leaves out `/data/new`
  (`Header.DiffersFromRouter`, `Header.CreateBatchPageMismatch`).
- The footer's `view` default is `list`, but the dashboard's is `grid`
  (`Footer.DefaultsDisagree`).

## Model

| member | source | states |
|---|---|---|
| Dashboard.FilterTasks | src/features/dashboard/DashboardView.tsx:64-89 | a task is kept iff search, status, type and time all match; a non-`all` status or type restricts every result to it; `today` keeps only tasks dated `Running` or `2023-10-24`; empty input gives empty output |
| Dashboard.FilterTasksAppend | src/features/dashboard/DashboardView.tsx:65-87 | the result is an order-preserving sub-sequence: filtering a concatenation is concatenating the filtered parts |
| Dashboard.FilterTasksIdempotent | src/features/dashboard/DashboardView.tsx:64-89 | re-filtering the output with the same arguments returns it unchanged |
| Dashboard.EmptySearchMatches | src/features/dashboard/DashboardView.tsx:66-67 | every task contains the empty search text |
| Dashboard.InitialFiltersKeepAll | src/features/dashboard/DashboardView.tsx:66-85 | with search `""` and every filter `all` the output equals the input |
| Dashboard.SearchIgnoresCase | src/features/dashboard/DashboardView.tsx:66-67 | two searches with the same lower-case form select the same tasks |
| Dashboard.SearchIsSubstring | src/features/dashboard/DashboardView.tsx:66-67 | the search passes iff the lower-cased text occurs at some position of the lower-cased name or id |
| Dashboard.OtherTimesKeepAll | src/features/dashboard/DashboardView.tsx:78-85 | every time value other than `today`, `week` and `month` included, filters like `all` |
| Dashboard.RenderedView | src/features/dashboard/DashboardView.tsx:95 | the grid renders iff `view` is absent, empty or `grid`; any other value, `list` included, renders the list |
| Dashboard.AnalysisTaskTarget | src/features/dashboard/DashboardView.tsx:237-275 | an analysis task opens `/particles` iff its type is `particle`, else `/fibers` |
| Dashboard.AnalysisTargetAnnouncesMode | src/features/dashboard/DashboardView.tsx:237-275 | the path an analysis task opens is one the sidebar's prefix test reads as the task's mode, equals the upload page's start path for that type, and is served by no route |
| Dashboard.TrainingTaskTarget | src/features/dashboard/DashboardView.tsx:394-424 | a fine-tuning task opens the route table's fine-tuning page, a workstation page in the sidebar's fine-tuning menu |
| Dashboard.CreateAnalysisOpensUpload | src/features/dashboard/DashboardView.tsx:99-101 | "new analysis" opens the route table's upload page, a dashboard page that leaves the sidebar mode alone |
| Seqs.Filter | src/features/dashboard/DashboardView.tsx:65 | `filter` keeps exactly the elements passing the test and never lengthens the list |
| Seqs.FilterAppend | src/features/analysis/TaskComparisonView.tsx:156 | filtering distributes over concatenation, so relative order is kept |
| Seqs.FilterIdentity | src/features/dashboard/DashboardView.tsx:65 | filtering returns the list itself iff every element passes |
| Seqs.FilterAllPass | src/features/dashboard/DashboardView.tsx:65 | when every element passes, filtering returns the list unchanged |
| Seqs.FilterCount | src/features/analysis/TaskComparisonView.tsx:156 | each passing element keeps its number of occurrences; failing ones have none |
| Seqs.FilterIdempotent | src/features/dashboard/DashboardView.tsx:65 | filtering twice with one test equals filtering once |
| Seqs.FilterNoDup | src/features/analysis/AttributeAnalysisView.tsx:65 | filtering a duplicate-free list leaves it duplicate-free |
| Seqs.FilterPairwise | src/features/analysis/TaskComparisonView.tsx:156 | a relation holding between all earlier/later pairs still holds after filtering |
| Seqs.DropIndex | src/features/data/CreateDataBatchView.tsx:13 | `filter((_, i) => i !== index)` removes position `index` when it exists and otherwise changes nothing |
| Text.Lower | src/features/dashboard/DashboardView.tsx:66 | lower-casing keeps the length, leaves no upper-case letter and keeps every other character |
| Text.LowerIdempotent | src/features/analysis/TaskComparisonView.tsx:427-437 | lower-casing an already lower-cased text changes nothing |
| Text.IncludesIffOccurs | src/features/dashboard/DashboardView.tsx:66-67 | `includes` holds iff the text occurs at some position |
| Text.IncludesEmpty | src/features/dashboard/DashboardView.tsx:66 | every text includes `""` |
| Text.IncludesSelf | src/features/dashboard/DashboardView.tsx:66 | every text includes itself |
| QueryParams.Get | src/components/Sidebar.tsx:107 | `get` is null iff no pair has that name, and a returned value belongs to a pair with that name |
| QueryParams.Set | src/components/Sidebar.tsx:175 | after `set` the pairs are the new pair and the pairs of other names |
| QueryParams.GetSet | src/components/GlobalFooter.tsx:26-29 | after `set(n, v)`, `get(n)` is `v` and `get` of every other name is unchanged |
| QueryParams.SetIdempotent | src/components/Sidebar.tsx:173-176 | setting the same pair twice equals setting it once |
| QueryParams.GetOr | src/components/GlobalFooter.tsx:16 | the fallback idiom on `get(n)` yields the default for a missing or empty value, else the value |
| QueryParams.FromPairs | src/components/Sidebar.tsx:108 | an object literal becomes the list of its pairs, in order |
| QueryParams.Without | src/components/Sidebar.tsx:175 | removing a name keeps exactly the pairs of other names |
| QueryParams.GetWithout | src/components/Sidebar.tsx:175 | removing one name leaves `get` of every other name unchanged |
| QueryParams.WithoutIdempotent | src/components/Sidebar.tsx:175 | removing a name twice is removing it once |
| QueryParams.WithoutNothing | src/components/Sidebar.tsx:175 | removing an absent name changes nothing |
| QueryParams.GetCons | src/components/Sidebar.tsx:107 | `get` sees the first pair before the rest |
| Selection.Toggle | src/features/analysis/AttributeAnalysisView.tsx:63-69 | toggling flips membership of the id only: absent ids are appended at the end, present ids are filtered out |
| Selection.ToggleAll | src/features/analysis/AttributeAnalysisView.tsx:71-77 | "all selected" becomes empty; any other state becomes every id in image order |
| Selection.ToggleValid | src/features/analysis/AttributeAnalysisView.tsx:63-69 | toggling an offered id keeps the selection a duplicate-free subset of the ids |
| Selection.ToggleTwice | src/features/analysis/ComparisonAnalysisView.tsx:133-139 | toggling twice keeps the same ids, and restores the list itself when the id was absent |
| Selection.ToggleAllValid | src/features/analysis/ComparisonAnalysisView.tsx:141-147 | select-all/deselect-all keeps the selection valid |
| Selection.AllSelectedIffEvery | src/features/analysis/AttributeAnalysisView.tsx:60 | on a valid selection the length test holds iff every image id is selected |
| Selection.RunValid | src/features/analysis/CorrelationAnalysisView.tsx:94-108 | any sequence of image and select-all clicks keeps a valid selection valid |
| Selection.ReachableSelection | src/features/analysis/AttributeAnalysisView.tsx:60-77 | after any clicks on offered images the selection is a duplicate-free subset of the ids, and the length test "all selected" is set equality with the ids |
| AnalysisImages.Ids | src/features/analysis/AttributeAnalysisView.tsx:28-34 | the five image ids, in order, without duplicates |
| AttributeAnalysis.InitialSelection | src/features/analysis/AttributeAnalysisView.tsx:52-60 | every image is selected initially, so "all selected" holds |
| AttributeAnalysis.ChartData | src/features/analysis/AttributeAnalysisView.tsx:85-96 | one bar per bin with its count and a share of count/total·100; cumulative is the running sum's share, non-decreasing, between the bin's share and 100, and exactly 100 after the last bin |
| AttributeAnalysis.ChartVisibility | src/features/analysis/AttributeAnalysisView.tsx:60-129 | the chart shows iff the selection is non-empty: shown at mount, hidden after deselect-all, shown after select-all from any other state or after adding an image |
| AttributeAnalysis.LastBarFull | src/features/analysis/AttributeAnalysisView.tsx:89-93 | the last bin's cumulative share is exactly 100 |
| AttributeAnalysis.TotalAppend | src/features/analysis/AttributeAnalysisView.tsx:85 | the total of a concatenation is the sum of the totals |
| AttributeAnalysis.BarsBounded | src/features/analysis/AttributeAnalysisView.tsx:92-93 | 0 ≤ share ≤ cumulative share ≤ 100 for every bar |
| AttributeAnalysis.BarsMonotone | src/features/analysis/AttributeAnalysisView.tsx:89-93 | the cumulative share never decreases along the bars |
| AttributeAnalysis.PrefixMonotone | src/features/analysis/AttributeAnalysisView.tsx:89 | the running sum never decreases |
| AttributeAnalysis.PrefixBelowTotal | src/features/analysis/AttributeAnalysisView.tsx:85-89 | the running sum never exceeds the total |
| AttributeAnalysis.ShareBounds | src/features/analysis/AttributeAnalysisView.tsx:92-93 | a share of a part below the whole lies in [0, 100] |
| AttributeAnalysis.ShareMonotone | src/features/analysis/AttributeAnalysisView.tsx:93 | a larger part has a larger share |
| ComparisonAnalysis.InitialSelection | src/features/analysis/ComparisonAnalysisView.tsx:102-106 | the first three image ids are selected, so "all selected" is false, and the selection is valid |
| ComparisonAnalysis.ViolinOf | src/features/analysis/ComparisonAnalysisView.tsx:37-48 | min is `max(0, mean − spread)`, at least 0 and at least mean − spread; max is mean + spread; value equals max; 0 ≤ min ≤ mean ≤ max for non-negative draws |
| ComparisonAnalysis.ViolinData | src/features/analysis/ComparisonAnalysisView.tsx:109-130 | one violin per selected id in selection order, the i-th being the summary of the i-th id with its draw, with value = max and ordered bounds |
| CorrelationAnalysis.Initial | src/features/analysis/CorrelationAnalysisView.tsx:49-55 | every image is selected and only the regression switch is on at mount |
| CorrelationAnalysis.Flip | src/features/analysis/CorrelationAnalysisView.tsx:319-337 | each switch negates its own flag and leaves the other two |
| CorrelationAnalysis.FlipTwice | src/features/analysis/CorrelationAnalysisView.tsx:319-337 | flipping a switch twice restores the switches |
| CorrelationAnalysis.MinX | src/features/analysis/CorrelationAnalysisView.tsx:74 | minX is at most every x |
| CorrelationAnalysis.MaxX | src/features/analysis/CorrelationAnalysisView.tsx:75 | maxX is at least every x |
| CorrelationAnalysis.ExtremesAttained | src/features/analysis/CorrelationAnalysisView.tsx:74-75 | minX and maxX are x values of actual points |
| CorrelationAnalysis.Regression | src/features/analysis/CorrelationAnalysisView.tsx:58-91 | empty when hidden or with fewer than 2 points; else 21 points on the line, the first at minX and the last at maxX |
| CorrelationAnalysis.RegressionShape | src/features/analysis/CorrelationAnalysisView.tsx:74-88 | a drawn line advances in equal steps of (maxX − minX)/20 and stays within [minX, maxX] |
| CorrelationAnalysis.Line | src/features/analysis/CorrelationAnalysisView.tsx:78-88 | `steps + 1` samples on the line, the first at lo and the last at hi |
| CorrelationAnalysis.LineSpacing | src/features/analysis/CorrelationAnalysisView.tsx:80-83 | consecutive samples are (hi − lo)/20 apart |
| CorrelationAnalysis.LineInRange | src/features/analysis/CorrelationAnalysisView.tsx:82-83 | every sample lies within [lo, hi] |
| CorrelationAnalysis.SampleStep | src/features/analysis/CorrelationAnalysisView.tsx:80-83 | consecutive samples are one step size apart |
| CorrelationAnalysis.SampleInRange | src/features/analysis/CorrelationAnalysisView.tsx:82-83 | every sample lies between minX and maxX |
| CorrelationAnalysis.SampleEnds | src/features/analysis/CorrelationAnalysisView.tsx:82-83 | sample 0 is minX and sample 20 is maxX |
| CorrelationAnalysis.LineOf | src/features/analysis/CorrelationAnalysisView.tsx:58-59 | the line is empty while the regression switch is off |
| CorrelationAnalysis.LineIgnoresSelection | src/features/analysis/CorrelationAnalysisView.tsx:91 | records, by construction, that the line is drawn from the fixed data and the switch, never from the selection |
| TaskComparison.CurrentId | src/features/analysis/TaskComparisonView.tsx:125-129 | the route's task id with fallback `current` is never empty, and is the task id when that is non-empty |
| TaskComparison.Init | src/features/analysis/TaskComparisonView.tsx:119-135 | the list starts as the current entry alone, active on it, dropdown closed, no image selections |
| TaskComparison.AddTask | src/features/analysis/TaskComparisonView.tsx:148-153 | an already-compared id leaves the list unchanged, any other task is appended; the dropdown closes either way |
| TaskComparison.RemoveTask | src/features/analysis/TaskComparisonView.tsx:155-160 | exactly the entries with that id go; if they were active, the active id becomes the old head's id (or `""` for an empty list) |
| TaskComparison.RemoveKeepsOrder | src/features/analysis/TaskComparisonView.tsx:156 | removal keeps the remaining entries in order |
| TaskComparison.ToggleImage | src/features/analysis/TaskComparisonView.tsx:137-146 | flips the image's membership in that task's selection only; other tasks' selections are unchanged |
| TaskComparison.ToggleImageTwice | src/features/analysis/TaskComparisonView.tsx:137-146 | toggling twice restores the task's image set and leaves the other tasks alone |
| TaskComparison.ShowImagesOf | src/features/analysis/TaskComparisonView.tsx:466 | clicking an entry makes it active |
| TaskComparison.TypeQuery | src/features/analysis/TaskComparisonView.tsx:426-428 | the typed text is stored lower-cased |
| TaskComparison.ToggleDropdown | src/features/analysis/TaskComparisonView.tsx:398 | the button negates the dropdown flag |
| TaskComparison.Candidates | src/features/analysis/TaskComparisonView.tsx:436-438 | the candidates are the catalogue tasks not compared whose lower-cased name or id contains the query, in catalogue order |
| TaskComparison.CandidatesAppend | src/features/analysis/TaskComparisonView.tsx:436-438 | the candidates of a concatenated catalogue are the candidates of each part, one after the other, so catalogue order is kept |
| TaskComparison.AddCandidateAppends | src/features/analysis/TaskComparisonView.tsx:148-153 | picking an offered candidate always appends it |
| TaskComparison.EmptyQueryOffersAll | src/features/analysis/TaskComparisonView.tsx:436-438 | with an empty query every catalogue task not yet compared is offered |
| TaskComparison.ViolinOf | src/features/analysis/TaskComparisonView.tsx:61-72 | the seed (id length plus name length) gives mean in [5, 9], spread in [2, 4], so 1 ≤ min < mean < max ≤ 13 |
| TaskComparison.ChartData | src/features/analysis/TaskComparisonView.tsx:163-165 | one violin per compared task, the i-th being the seeded summary of the i-th task's id and name, with ordered bounds |
| TaskComparison.ChartDataAppend | src/features/analysis/TaskComparisonView.tsx:163-165 | the chart of a concatenated list is the charts of the parts, one after the other |
| TaskComparison.AddTaskExtendsChart | src/features/analysis/TaskComparisonView.tsx:148-165 | adding an uncompared task appends exactly its violin to the chart; adding a compared one leaves the chart unchanged |
| TaskComparison.DisplayImages | src/features/analysis/TaskComparisonView.tsx:168-174 | the current task shows the `default` images, a known task its own, any other none |
| TaskComparison.InitUnique | src/features/analysis/TaskComparisonView.tsx:124-126 | the initial list has unique ids |
| TaskComparison.StepUnique | src/features/analysis/TaskComparisonView.tsx:148-157 | every action keeps the compared ids unique |
| TaskComparison.RunUnique | src/features/analysis/TaskComparisonView.tsx:124-157 | compared ids stay unique under any sequence of actions |
| TaskComparison.InitHeadIsCurrent | src/features/analysis/TaskComparisonView.tsx:124-126 | the current entry heads the initial list |
| TaskComparison.StepKeepsCurrent | src/features/analysis/TaskComparisonView.tsx:148-160 | with no remove button on the current entry, it stays first, and removing the active task makes the current task active |
| TaskComparison.RemoveKeepsCurrent | src/features/analysis/TaskComparisonView.tsx:155-160 | removing a non-current entry keeps the current entry first, leaves no other current entry, and moves a removed display to the current task |
| TaskComparison.RemovingDisplayedShowsDefault | src/features/analysis/TaskComparisonView.tsx:155-174 | removing the task on display makes the panel show the current task's `default` images |
| TaskComparison.RunKeepsCurrent | src/features/analysis/TaskComparisonView.tsx:148-160 | the current entry heads the list after any sequence of offered actions |
| Canvas.Clamp | src/features/recognition/InteractiveCanvas.tsx:29 | the clamped scale lies in [0.5, 5] and equals its input when that is already in range |
| Canvas.Wheel | src/features/recognition/InteractiveCanvas.tsx:26-32 | without ctrl nothing changes; with ctrl the scale moves by `−deltaY·0.01` when that stays within [0.5, 5] and is pinned to the nearer bound otherwise; offset and drag state never change |
| Canvas.MouseDown | src/features/recognition/InteractiveCanvas.tsx:34-37 | starts a drag anchored so that anchor + offset is the pointer |
| Canvas.MouseMove | src/features/recognition/InteractiveCanvas.tsx:39-45 | without a drag nothing changes; during a drag offset + anchor is the pointer; the scale never changes |
| Canvas.MouseUp | src/features/recognition/InteractiveCanvas.tsx:47-57 | clears dragging and keeps scale and offset |
| Canvas.ScaleStaysInBounds | src/features/recognition/InteractiveCanvas.tsx:20-29 | from a scale in [0.5, 5] it stays there after any events |
| Canvas.InitScaleInBounds | src/features/recognition/InteractiveCanvas.tsx:20-23 | the mount state has scale 1 within bounds and no drag |
| Canvas.DragShiftsOffset | src/features/recognition/InteractiveCanvas.tsx:36-44 | down at p, move to q gives old offset + (q − p); moving back to p restores the offset |
| Canvas.NoPanAfterRelease | src/features/recognition/InteractiveCanvas.tsx:40-47 | after release no pointer movement changes the canvas |
| Sidebar.ModeOfPath | src/components/Sidebar.tsx:57-66 | a `/particles` prefix gives particle, else a `/fibers` prefix gives fiber, else no mode |
| Sidebar.InitMode | src/components/Sidebar.tsx:56-60 | the initial mode is the path's mode, else the stored one |
| Sidebar.Effect | src/components/Sidebar.tsx:62-70 | a mode path sets mode and stored key to that mode; any other path changes neither |
| Sidebar.MountInSync | src/components/Sidebar.tsx:56-70 | after mounting, the mode equals the stored value |
| Sidebar.VisitInSync | src/components/Sidebar.tsx:62-70 | every processed path change keeps mode and stored value equal |
| Sidebar.ModeIsSticky | src/components/Sidebar.tsx:62-70 | after a mode path, neutral paths keep that mode |
| Sidebar.NeutralVisit | src/components/Sidebar.tsx:62-70 | paths without a mode prefix change nothing |
| Sidebar.RoutedModePaths | src/App.tsx:52-62 | a routed page sets the particle (fiber) mode iff it is a task page whose id begins with `particles` (`fibers`, and not `particles`); no other routed page sets a mode |
| Sidebar.RoutedTaskPathKeepsMode | src/components/Sidebar.tsx:63-66 | the routed page `/T-1029/particles` does not set the mode |
| Sidebar.DashboardActiveExactly | src/components/Sidebar.tsx:73-75 | the dashboard item is active iff the path is `/` or `/dashboard` exactly |
| Sidebar.PrefixActive | src/components/Sidebar.tsx:76 | every other item is active iff it prefixes the path |
| Sidebar.RecognitionItems | src/components/Sidebar.tsx:145-161 | particle and fiber items are never shown together, neither without a mode, neither in the fine-tuning menu, and one whenever there is a mode outside it |
| Sidebar.TabOf | src/components/Sidebar.tsx:108-132 | each fine-tuning item selects a non-empty tab |
| Sidebar.TabOfInjective | src/components/Sidebar.tsx:108-132 | distinct items select distinct tabs |
| Sidebar.ClickFineTune | src/components/Sidebar.tsx:108-132 | a fine-tuning item replaces the query with its `tab` alone |
| Sidebar.ConfigurationActive | src/components/Sidebar.tsx:107 | Configuration is active iff the tab is `settings`, absent or empty |
| Sidebar.FineTuneHighlight | src/components/Sidebar.tsx:107-132 | at most one fine-tuning item is active, and after a click exactly the clicked one |
| Sidebar.AnalysisHub | src/components/Sidebar.tsx:172-178 | the hub button sets `analysis=true` on a copy of the query |
| Sidebar.AnalysisHubKeepsOthers | src/components/Sidebar.tsx:171-178 | afterwards the hub is active and every other parameter reads as before |
| Sidebar.ItemTargetsAnnounceMode | src/components/Sidebar.tsx:145-161 | the particle and fiber items link to paths the prefix tests read as their own mode and item, paths that no route serves; back links to the dashboard |
| SidebarContext.ToggleSidebar | src/context/SidebarContext.tsx:14 | toggling negates the collapsed flag |
| SidebarContext.SetCollapsed | src/context/SidebarContext.tsx:12-17 | `setIsCollapsed(v)` leaves the flag equal to v |
| SidebarContext.ToggleTwice | src/context/SidebarContext.tsx:14 | toggling twice is the identity |
| SidebarContext.ToggleParity | src/context/SidebarContext.tsx:12-14 | from the initial expanded state, n toggles leave it collapsed iff n is odd |
| SidebarContext.UseSidebar | src/context/SidebarContext.tsx:23-29 | outside a provider the hook fails with its error message; inside it returns the provider's context |
| Routes.AnimationKey | src/App.tsx:32-33 | the key is `dashboard` iff the path is a dashboard path, else `workstation` |
| Routes.Path | src/App.tsx:38-62 | every page path starts with `/`; task pages are `/<taskId><suffix>`, data pages `/data/<batchId><suffix>` |
| Routes.TaskSuffix | src/App.tsx:52-62 | every task-page suffix starts with `/` |
| Routes.Classification | src/App.tsx:32-62 | `/`, `/dashboard`, `/upload`, `/data/new` are dashboard pages; docs, fine-tuning and data pages are workstation pages; task pages are too unless the task id begins with `dashboard` |
| Routes.TaskPageGroup | src/App.tsx:32-62 | a task page is a dashboard page iff its task id begins with `dashboard` |
| Routes.DataPageGroup | src/App.tsx:32-51 | every data page, the index of batch `new` excluded, is a workstation page |
| Routes.SegmentPrefix | src/App.tsx:52-62 | a prefix test of `/w` on `/<id>/…`, with w one segment, holds iff the id begins with w |
| Routes.ModePathsUnrouted | src/App.tsx:38-63 | no page of the route table is served at `/particles` or `/fibers` |
| Routes.TaskPathPrefix | src/App.tsx:32-52 | `/<id>/…` begins with `/dashboard` iff the segment id begins with `dashboard` |
| Routes.Redirect | src/App.tsx:38-55 | `/` goes to `/dashboard`, the data index to its overview, the analysis index to its attribute page, and nothing else redirects |
| Routes.RedirectSettles | src/App.tsx:38-55 | a redirect target does not redirect again, is the index path plus the relative target, and keeps the animation key |
| Footer.SameAsRouter | src/components/GlobalFooter.tsx:13 | the footer's dashboard test is the router's |
| Footer.ViewMode | src/components/GlobalFooter.tsx:16 | a non-empty `view` value is the layout; a missing or empty one gives `list`; the layout is never empty |
| Footer.DefaultsDisagree | src/components/GlobalFooter.tsx:16 | with no `view` parameter the footer reads `list` while the dashboard renders the grid |
| Footer.ToggleView | src/components/GlobalFooter.tsx:25-30 | the switch sets `view` and keeps the pairs of other names |
| Footer.ToggleViewKeepsOthers | src/components/GlobalFooter.tsx:25-30 | after the switch `view` reads the chosen layout and other parameters read as before |
| Footer.ChosenViewAgrees | src/components/GlobalFooter.tsx:132-139 | once a layout is chosen the footer and the dashboard agree on it |
| Footer.Width | src/components/GlobalFooter.tsx:36 | `100%` iff dashboard; otherwise `5rem` iff collapsed, else `16rem` |
| Footer.DocsHidesControls | src/components/GlobalFooter.tsx:121-157 | the documentation button leads to a workstation page, where the controls are hidden |
| Footer.ToggleLanguage | src/components/GlobalFooter.tsx:149 | the language switch always changes the language |
| Footer.ToggleLanguageTwice | src/components/GlobalFooter.tsx:149 | switching the language twice is the identity |
| Header.DiffersFromRouter | src/components/GlobalHeader.tsx:9 | the header's dashboard pages are the router's minus `/data/new`, and they differ on that path alone |
| Header.Width | src/components/GlobalHeader.tsx:15 | `100%` iff dashboard, else `16rem` |
| Header.CreateBatchPageMismatch | src/components/GlobalHeader.tsx:9-32 | on `/data/new` the header is `16rem` wide without ticker while the footer is `100%` |
| Header.WidthsAgreeElsewhere | src/components/GlobalHeader.tsx:15 | on every other path header and footer agree about full width |
| Upload.SubTasksOf | src/features/dashboard/UploadView.tsx:12-67 | particle offers four modes starting with `default`, fiber two starting with `coarse` |
| Upload.Lookup | src/features/dashboard/UploadView.tsx:253 | the lookup by key succeeds iff the type offers a mode with that key |
| Upload.FindMode | src/features/dashboard/UploadView.tsx:253 | finds a mode of that key iff one is listed |
| Upload.Step | src/features/dashboard/UploadView.tsx:158-220 | particle card sets `default`, fiber card sets `coarse`, a mode button sets its own key for the current type |
| Upload.InitValid | src/features/dashboard/UploadView.tsx:72-73 | the initial particle/`default` pair is consistent |
| Upload.StepPreservesValid | src/features/dashboard/UploadView.tsx:158-220 | every click keeps the mode a key of the current type |
| Upload.RunValid | src/features/dashboard/UploadView.tsx:158-220 | any click sequence keeps the mode a key of the current type |
| Upload.PanelOf | src/features/dashboard/UploadView.tsx:253 | the panel falls back to "Select a mode" iff the mode is not a key of the type |
| Upload.FallbackUnreachable | src/features/dashboard/UploadView.tsx:253 | from mount, the fallback is never shown |
| Upload.StartTarget | src/features/dashboard/UploadView.tsx:78-84 | start navigates to `/particles` for particle and `/fibers` for fiber, a path the sidebar's prefix test reads as that type's mode |
| CreateBatch.RemoveFile | src/features/data/CreateDataBatchView.tsx:12-14 | a valid index removes exactly that file, keeps the others in order and shortens by one; an invalid index changes nothing |
| CreateBatch.RemoveFileMultiset | src/features/data/CreateDataBatchView.tsx:13 | exactly one occurrence of the removed file leaves the list |
| CreateBatch.AppendFiles | src/features/data/CreateDataBatchView.tsx:59-62 | picked files follow the existing ones in order; no selection changes nothing |
| CreateBatch.RemoveUndoesAppend | src/features/data/CreateDataBatchView.tsx:12-14 | removing a just-picked single file restores the list |
| CreateBatch.RemovingLastFileDisables | src/features/data/CreateDataBatchView.tsx:141 | create is enabled with one file iff the title is non-empty, and removing that file disables it |
| CreateBatch.SubmitTargetIsOverview | src/features/data/CreateDataBatchView.tsx:16-21 | submit leads to the overview page of batch `DB-NEW-001`, a workstation page |
| FineTuning.Tab | src/features/finetuning/FineTuningView.tsx:302 | a non-empty `tab` value is the tab; a missing or empty one gives `settings`; the tab is never empty |
| FineTuning.RenderedViews | src/features/finetuning/FineTuningView.tsx:306-309 | exactly one sub-view for `training`, `settings`, `data`, `annotation`, none for any other tab |
| FineTuning.RenderedIffTab | src/features/finetuning/FineTuningView.tsx:306-309 | an item's sub-view alone is rendered iff the tab is that item's |
| FineTuning.SidebarMatchesView | src/features/finetuning/FineTuningView.tsx:302-309 | the sidebar highlights exactly the item whose sub-view is on screen |
| FineTuning.ClickRendersView | src/features/finetuning/FineTuningView.tsx:306-309 | following a sidebar item renders its sub-view alone |
| FineTuning.GoToAnnotation | src/features/finetuning/FineTuningView.tsx:168-170 | the query becomes `tab=annotation` and `dataset=<name>` alone, rendering the annotation studio |
| FineTuning.TrainingDataStable | src/features/finetuning/FineTuningView.tsx:7-11 | the clamps are settled: using the generated curves as the random terms regenerates the same data |
| FineTuning.TrainingData | src/features/finetuning/FineTuningView.tsx:7-11 | 20 entries, epoch i+1 at index i, loss ≥ 0.1 and accuracy ≤ 0.98 whatever the random term, unchanged when already in range |
| BatchTasks.Target | src/features/data/DataBatchTasks.tsx:15 | training tasks open `/finetune?tab=training`, others `/<id>/<type>s` |
| BatchTasks.TargetIsTaskRoute | src/features/data/DataBatchTasks.tsx:15 | a particle or fiber task's target is its recognition page in the route table |
| BatchTasks.MockParticleTask | src/features/data/mockData.ts:15-18 | T-1029 opens `/T-1029/particles`, a workstation page that leaves the sidebar mode alone; FT-005 opens the training tab |
| BatchTasks.RowOf | src/features/data/DataBatchTasks.tsx:13-36 | the row shows id and status, the training icon iff a training task, the completed style iff status `completed` |
| BatchTasks.Rows | src/features/data/DataBatchTasks.tsx:12 | one row per linked task, in order |
| BatchTasks.IconIffTrainingTarget | src/features/data/DataBatchTasks.tsx:15-20 | a row shows the training icon exactly when clicking it opens the training tab |

## Left out

- Rendering is not modelled: JSX layout, CSS class strings, `cn`/`twMerge`/`clsx`, recharts and framer-motion. This is presentation and foreign library code.
- Random numbers, `Math.exp` density profiles and the SVG path of the violin shape are left out; random values enter as inputs instead.
- The least-squares slope and intercept (src/features/analysis/CorrelationAnalysisView.tsx:61-72) are inputs of `CorrelationAnalysis.Regression`, because they are floating-point arithmetic over fixed mock data.
- Floating-point rounding is not modelled: coordinates and percentages are exact reals.
- `CorrelationAnalysis.Regression`: the last sample equals maxX only with exact arithmetic; in floating point `minX + 20·stepSize` may differ from maxX in the last bits.
- AttributeAnalysis.ChartData: requires a positive total. The page only ever passes jittered counts of fixed non-zero mock bins, so the total is positive there. With a zero total the source would divide by zero and produce NaN, which reals cannot represent.
- react-router route matching and ranking are library behaviour. `Routes` models the table as a `Route` datatype with its paths and excludes the batch id `new`, which the explicit `/data/new` route takes.
- `useNavigate` is modelled only as the target string.
- Local storage is a browser service. It is the `stored` field, and only the two mode values are modelled. A foreign string under the key would leave the sidebar with neither item.
- `Text.Lower` lower-cases ASCII letters only; `toLowerCase`'s full Unicode case mapping is left out.
- File objects, their sizes and the `console.log` of the submitted batch are left out; a file is its name.
- The other views' own states are not modelled: the task name, description, model version and device fields of the upload page, the log-scale switches of the comparison and task-comparison views, and the export modal of the sidebar. They feed no logic beyond their own display.
- Comparison's and correlation's `toggleImage`/`toggleSelectAll` are modelled by the same `Selection.Toggle` and `Selection.ToggleAll` as the attribute view, because the three are identical. `CorrelationAnalysis` relies on `Selection.RunValid` for its invariant.

=== FILE: analysis_images.dfy ===
/** The image list shared by the attribute, comparison and correlation views:
    each of the three declares the same five images. */
module AnalysisImages {
  import Seqs

  datatype Image = Image(id: string, status: string, count: nat)

  const Images: seq<Image> := [
    Image("Img_001.tif", "Completed", 245),
    Image("Img_002.tif", "Completed", 312),
    Image("Img_003.tif", "Completed", 156),
    Image("Img_004.tif", "Pending", 0),
    Image("Img_005.tif", "Pending", 0)
  ]

  /** `IMAGES.map(img => img.id)`. */
  function Ids(): (r: seq<string>)
    ensures |r| == |Images| == 5
    ensures forall i :: 0 <= i < |Images| ==> r[i] == Images[i].id
    ensures Seqs.NoDup(r)
  {
    seq(|Images|, i requires 0 <= i < |Images| => Images[i].id)
  }
}

=== FILE: attribute_analysis.dfy ===
/** The attribute-analysis view: the image selection (initially every image)
    and the histogram with its running cumulative percentage. */
module AttributeAnalysis {
  import Seqs
  import Selection
  import AnalysisImages

  /** Every image is selected on mount. */
  function InitialSelection(): (sel: seq<string>)
    ensures Selection.IsAllSelected(sel, AnalysisImages.Ids())
    ensures Selection.Valid(sel, AnalysisImages.Ids())
    ensures Seqs.Elems(sel) == Seqs.Elems(AnalysisImages.Ids())
  {
    AnalysisImages.Ids()
  }

  /** The chart is drawn only while some image is selected. */
  predicate ChartShown(sel: seq<string>) {
    |sel| > 0
  }

  /** The chart is on screen at mount; deselecting all hides it, and
      selecting all or any single image brings it back. */
  lemma ChartVisibility(sel: seq<string>, id: string)
    ensures ChartShown(InitialSelection())
    ensures !ChartShown(Selection.ToggleAll(InitialSelection(), AnalysisImages.Ids()))
    ensures !Selection.IsAllSelected(sel, AnalysisImages.Ids()) ==>
              ChartShown(Selection.ToggleAll(sel, AnalysisImages.Ids()))
    ensures id !in sel ==> ChartShown(Selection.Toggle(sel, id))
    ensures ChartShown(sel) <==> exists x :: x in sel
  {
    if ChartShown(sel) {
      assert sel[0] in sel;
    }
  }

  /** Sum of the bin counts. */
  function Total(counts: seq<nat>): nat
    decreases |counts|
  {
    if counts == [] then 0 else counts[0] + Total(counts[1..])
  }

  lemma {:induction false} TotalAppend(a: seq<nat>, b: seq<nat>)
    ensures Total(a + b) == Total(a) + Total(b)
    decreases |a|
  {
    if a == [] {
      assert a + b == b;
    } else {
      assert (a + b)[0] == a[0];
      assert (a + b)[1..] == a[1..] + b;
      TotalAppend(a[1..], b);
    }
  }

  /** One bar of the chart: the bin's count, its share of the total and the
      cumulative share up to and including it, in percent. */
  datatype Bar = Bar(count: nat, percentage: real, cumulative: real)

  function Percent(part: nat, total: nat): real
    requires total > 0
  {
    part as real / total as real * 100.0
  }

  /** The bar emitted for bin `i`. */
  function BarAt(counts: seq<nat>, i: nat): Bar
    requires i < |counts| && Total(counts) > 0
  {
    Bar(counts[i], Percent(counts[i], Total(counts)), Percent(Total(counts[..i + 1]), Total(counts)))
  }

  /** `chartData` for the jittered bin counts: the loop adds each count to
      `accumulated` and emits the bin's share and the running share. */
  method ChartData(counts: seq<nat>) returns (bars: seq<Bar>)
    requires Total(counts) > 0
    ensures |bars| == |counts|
    ensures forall i :: 0 <= i < |counts| ==> bars[i].count == counts[i]
    ensures forall i :: 0 <= i < |counts| ==> bars[i].percentage == Percent(counts[i], Total(counts))
    ensures forall i :: 0 <= i < |counts| ==> bars[i].cumulative == Percent(Total(counts[..i + 1]), Total(counts))
    ensures forall i, j :: 0 <= i <= j < |counts| ==> bars[i].cumulative <= bars[j].cumulative
    ensures forall i :: 0 <= i < |counts| ==> 0.0 <= bars[i].percentage <= bars[i].cumulative <= 100.0
    ensures |counts| > 0 ==> bars[|counts| - 1].cumulative == 100.0
  {
    var total := Total(counts);
    var accumulated: nat := 0;
    bars := [];
    var k := 0;
    while k < |counts|
      invariant 0 <= k <= |counts|
      invariant |bars| == k
      invariant accumulated == Total(counts[..k])
      invariant forall i :: 0 <= i < k ==> bars[i] == BarAt(counts, i)
    {
      TotalAppend(counts[..k], [counts[k]]);
      assert counts[..k + 1] == counts[..k] + [counts[k]];
      accumulated := accumulated + counts[k];
      bars := bars + [Bar(counts[k], Percent(counts[k], total), Percent(accumulated, total))];
      k := k + 1;
    }
    BarsBounded(counts);
    BarsMonotone(counts);
    LastBarFull(counts);
  }

  /** The running share reaches 100 at the last bin. */
  lemma LastBarFull(counts: seq<nat>)
    requires Total(counts) > 0
    ensures |counts| > 0 ==> BarAt(counts, |counts| - 1).cumulative == 100.0
  {
    if |counts| > 0 {
      assert counts[..|counts|] == counts;
      FullShare(Total(counts));
    }
  }

  /** The whole is 100 percent of itself. */
  lemma FullShare(t: nat)
    requires t > 0
    ensures Percent(t, t) == 100.0
  {
    assert t as real / t as real == 1.0;
  }

  lemma BarsBounded(counts: seq<nat>)
    requires Total(counts) > 0
    ensures forall i :: 0 <= i < |counts| ==>
              0.0 <= BarAt(counts, i).percentage <= BarAt(counts, i).cumulative <= 100.0
  {
    forall i | 0 <= i < |counts|
      ensures 0.0 <= BarAt(counts, i).percentage <= BarAt(counts, i).cumulative <= 100.0
    {
      TotalAppend(counts[..i], [counts[i]]);
      assert counts[..i + 1] == counts[..i] + [counts[i]];
      PrefixBelowTotal(counts, i + 1);
      ShareBounds(counts[i], Total(counts[..i + 1]), Total(counts));
    }
  }

  lemma BarsMonotone(counts: seq<nat>)
    requires Total(counts) > 0
    ensures forall i, j :: 0 <= i <= j < |counts| ==> BarAt(counts, i).cumulative <= BarAt(counts, j).cumulative
  {
    forall i, j | 0 <= i <= j < |counts|
      ensures BarAt(counts, i).cumulative <= BarAt(counts, j).cumulative
    {
      PrefixMonotone(counts, i + 1, j + 1);
      ShareMonotone(Total(counts[..i + 1]), Total(counts[..j + 1]), Total(counts));
    }
  }

  lemma {:induction false} PrefixMonotone(counts: seq<nat>, m: nat, n: nat)
    requires m <= n <= |counts|
    ensures Total(counts[..m]) <= Total(counts[..n])
  {
    TotalAppend(counts[..m], counts[m..n]);
    assert counts[..m] + counts[m..n] == counts[..n];
  }

  lemma {:induction false} PrefixBelowTotal(counts: seq<nat>, n: nat)
    requires n <= |counts|
    ensures Total(counts[..n]) <= Total(counts)
  {
    TotalAppend(counts[..n], counts[n..]);
    assert counts[..n] + counts[n..] == counts;
  }

  lemma ShareBounds(c: nat, a: nat, t: nat)
    requires 0 < t && c <= a <= t
    ensures 0.0 <= Percent(c, t) <= Percent(a, t) <= 100.0
  {
    ShareMonotone(c, a, t);
    ShareMonotone(a, t, t);
    FullShare(t);
  }

  lemma ShareMonotone(a: nat, b: nat, t: nat)
    requires 0 < t && a <= b
    ensures 0.0 <= Percent(a, t) <= Percent(b, t)
  {
    var x, y, z := a as real, b as real, t as real;
    assert y / z - x / z == (y - x) / z;
    assert (y - x) / z >= 0.0;
    assert x / z >= 0.0;
  }
}

=== FILE: batch_tasks.dfy ===
/** The "tasks" tab of a data batch: one row per analysis or training task
    run on the batch, each leading to its workspace. */
module BatchTasks {
  import opened Wrappers
  import Routes
  import Sidebar

  datatype LinkedTask = LinkedTask(id: string, name: string, kind: string, status: string, date: string)

  /** The mock batch's linked tasks. */
  const LinkedTasks: seq<LinkedTask> := [
    LinkedTask("T-1029", "Graphene Particle Analysis", "particle", "completed", "2023-10-25"),
    LinkedTask("FT-005", "Graphene Segmentation Finetune", "training", "completed", "2023-10-26")
  ]

  const TrainingTarget: string := "/finetune?tab=training"

  /** A training task opens the fine-tuning workspace on its training tab;
      any other task opens `/<id>/<type>s`. */
  function Target(t: LinkedTask): (path: string)
    ensures t.kind == "training" ==> path == TrainingTarget
    ensures t.kind != "training" ==> path == "/" + t.id + "/" + t.kind + "s"
  {
    if t.kind == "training" then TrainingTarget else "/" + t.id + "/" + t.kind + "s"
  }

  /** For a one-segment task id, the target of a particle or fiber task is
      the path of that task's recognition page in the route table. */
  lemma TargetIsTaskRoute(t: LinkedTask)
    requires Routes.Segment(t.id)
    ensures t.kind == "particle" ==> Target(t) == Routes.Path(Routes.TaskParticles(t.id))
    ensures t.kind == "fiber" ==> Target(t) == Routes.Path(Routes.TaskFibers(t.id))
  {
    if t.kind == "particle" {
      assert "/" + t.kind + "s" == "/particles";
      Routes.AppendSuffix("/" + t.id, "/" + t.kind, "s");
    } else if t.kind == "fiber" {
      assert "/" + t.kind + "s" == "/fibers";
      Routes.AppendSuffix("/" + t.id, "/" + t.kind, "s");
    }
  }

  /** The particle task of the mock batch opens `/T-1029/particles`, a
      workstation page that the sidebar does not read as a particle path. */
  lemma MockParticleTask(s: Sidebar.State)
    ensures Target(LinkedTasks[0]) == "/T-1029/particles"
    ensures Target(LinkedTasks[0]) == Routes.Path(Routes.TaskParticles("T-1029"))
    ensures Routes.AnimationKey(Target(LinkedTasks[0])) == "workstation"
    ensures Sidebar.Effect(s, Target(LinkedTasks[0])) == s
    ensures Target(LinkedTasks[1]) == TrainingTarget
  {
    MockParticlePath();
    MockParticleGroup();
    Sidebar.RoutedTaskPathKeepsMode(s);
  }

  lemma MockParticlePath()
    ensures Target(LinkedTasks[0]) == "/T-1029/particles"
    ensures Routes.Path(Routes.TaskParticles("T-1029")) == "/T-1029/particles"
  {
    TargetIsTaskRoute(LinkedTasks[0]);
  }

  lemma MockParticleGroup()
    ensures Routes.AnimationKey("/T-1029/particles") == "workstation"
  {
    MockParticlePath();
    Routes.TaskPageGroup(Routes.TaskParticles("T-1029"));
    assert "T-1029"[0] != "dashboard"[0];
  }

  /** What a row shows: id, the training icon or not, the status badge and
      its style, and where a click leads. */
  datatype Row = Row(id: string, trainingIcon: bool, badge: string, completedStyle: bool, target: string)

  function RowOf(t: LinkedTask): (r: Row)
    ensures r.id == t.id && r.badge == t.status && r.target == Target(t)
    ensures r.trainingIcon <==> t.kind == "training"
    ensures r.completedStyle <==> t.status == "completed"
  {
    Row(t.id, t.kind == "training", t.status, t.status == "completed", Target(t))
  }

  /** One row per linked task, in order. */
  function Rows(tasks: seq<LinkedTask>): (rows: seq<Row>)
    ensures |rows| == |tasks|
    ensures forall i :: 0 <= i < |tasks| ==> rows[i] == RowOf(tasks[i])
  {
    seq(|tasks|, i requires 0 <= i < |tasks| => RowOf(tasks[i]))
  }

  /** A row carries the training icon exactly when a click on it opens the
      training tab: the path of any other task has a second `/` right after
      its id, which the training target lacks. */
  lemma IconIffTrainingTarget(t: LinkedTask)
    ensures RowOf(t).trainingIcon <==> RowOf(t).target == TrainingTarget
  {
    if t.kind != "training" {
      var p := Target(t);
      var k := 1 + |t.id|;
      assert k < |p| && p[k] == '/';
      if |p| == |TrainingTarget| {
        assert forall j :: 1 <= j < |TrainingTarget| ==> TrainingTarget[j] != '/';
        assert TrainingTarget[k] != '/';
      }
    }
  }
}

=== FILE: canvas.dfy ===
/** The pan-and-zoom canvas of the recognition views: ctrl-wheel zooms within
    fixed bounds, dragging with the mouse pans. */
module Canvas {
  datatype Point = Point(x: real, y: real)

  /** `startPan` is where the pointer was relative to the offset when the
      drag began. */
  datatype Canvas = Canvas(scale: real, offset: Point, dragging: bool, startPan: Point)

  const MinScale: real := 0.5
  const MaxScale: real := 5.0
  /** Scale change per unit of wheel delta. */
  const ZoomRate: real := 0.01

  const Init: Canvas := Canvas(1.0, Point(0.0, 0.0), false, Point(0.0, 0.0))

  predicate ScaleInBounds(c: Canvas) {
    MinScale <= c.scale <= MaxScale
  }

  /** `Math.min(Math.max(0.5, v), 5)`. */
  function Clamp(v: real): (r: real)
    ensures MinScale <= r <= MaxScale
    ensures MinScale <= v <= MaxScale ==> r == v
    ensures v < MinScale ==> r == MinScale
    ensures v > MaxScale ==> r == MaxScale
  {
    var lifted := if MinScale > v then MinScale else v;
    if lifted < MaxScale then lifted else MaxScale
  }

  /** The wheel handler: only a wheel turn with ctrl held zooms. */
  function Wheel(c: Canvas, ctrl: bool, deltaY: real): (r: Canvas)
    ensures !ctrl ==> r == c
    ensures ctrl ==> MinScale <= r.scale <= MaxScale
    ensures ctrl && MinScale <= c.scale - deltaY * ZoomRate <= MaxScale ==> r.scale == c.scale - deltaY * ZoomRate
    ensures ctrl && c.scale - deltaY * ZoomRate < MinScale ==> r.scale == MinScale
    ensures ctrl && c.scale - deltaY * ZoomRate > MaxScale ==> r.scale == MaxScale
    ensures r.offset == c.offset && r.dragging == c.dragging && r.startPan == c.startPan
  {
    if ctrl then c.(scale := Clamp(c.scale - deltaY * ZoomRate)) else c
  }

  /** Pressing the button starts a drag anchored at the pointer. */
  function MouseDown(c: Canvas, p: Point): (r: Canvas)
    ensures r.dragging
    ensures r.startPan.x + c.offset.x == p.x && r.startPan.y + c.offset.y == p.y
    ensures r.scale == c.scale && r.offset == c.offset
  {
    c.(dragging := true, startPan := Point(p.x - c.offset.x, p.y - c.offset.y))
  }

  /** Moving the pointer pans only during a drag. */
  function MouseMove(c: Canvas, p: Point): (r: Canvas)
    ensures !c.dragging ==> r == c
    ensures c.dragging ==> r.offset.x + c.startPan.x == p.x && r.offset.y + c.startPan.y == p.y
    ensures r.scale == c.scale && r.dragging == c.dragging && r.startPan == c.startPan
  {
    if !c.dragging then c
    else c.(offset := Point(p.x - c.startPan.x, p.y - c.startPan.y))
  }

  /** Releasing the button, or the pointer leaving the canvas, ends the drag. */
  function MouseUp(c: Canvas): (r: Canvas)
    ensures !r.dragging
    ensures r.scale == c.scale && r.offset == c.offset
  {
    c.(dragging := false)
  }

  datatype Event = WheelTurn(ctrl: bool, deltaY: real) | Down(at: Point) | Move(to: Point) | Up | Leave

  function Step(c: Canvas, e: Event): Canvas {
    match e
    case WheelTurn(ctrl, deltaY) => Wheel(c, ctrl, deltaY)
    case Down(p) => MouseDown(c, p)
    case Move(p) => MouseMove(c, p)
    case Up => MouseUp(c)
    case Leave => MouseUp(c)
  }

  function Run(c: Canvas, events: seq<Event>): Canvas
    decreases |events|
  {
    if events == [] then c else Run(Step(c, events[0]), events[1..])
  }

  /** Whatever the events, the scale stays within [0.5, 5] from mount on. */
  lemma {:induction false} ScaleStaysInBounds(c: Canvas, events: seq<Event>)
    requires ScaleInBounds(c)
    ensures ScaleInBounds(Run(c, events))
    decreases |events|
  {
    if events != [] {
      ScaleStaysInBounds(Step(c, events[0]), events[1..]);
    }
  }

  lemma InitScaleInBounds()
    ensures ScaleInBounds(Init) && !Init.dragging
  {
  }

  /** A press at `p` followed by a move to `q` shifts the offset by `q - p`;
      moving back to `p` restores the offset. */
  lemma DragShiftsOffset(c: Canvas, p: Point, q: Point)
    ensures var d := MouseMove(MouseDown(c, p), q);
            d.offset == Point(c.offset.x + (q.x - p.x), c.offset.y + (q.y - p.y))
    ensures MouseMove(MouseMove(MouseDown(c, p), q), p).offset == c.offset
  {
  }

  /** After the button is released, no pointer movement changes the canvas. */
  lemma {:induction false} NoPanAfterRelease(c: Canvas, moves: seq<Point>)
    ensures var r := MouseUp(c);
            Run(r, seq(|moves|, i requires 0 <= i < |moves| => Move(moves[i]))) == r
    decreases |moves|
  {
    var r := MouseUp(c);
    var evs := seq(|moves|, i requires 0 <= i < |moves| => Move(moves[i]));
    if moves != [] {
      assert Step(r, evs[0]) == r;
      NoPanAfterRelease(c, moves[1..]);
      assert evs[1..] == seq(|moves[1..]|, i requires 0 <= i < |moves[1..]| => Move(moves[1..][i]));
    }
  }
}

=== FILE: comparison_analysis.dfy ===
/** The comparison-analysis view: the image selection (initially the first
    three images) and one violin per selected image. */
module ComparisonAnalysis {
  import Seqs
  import Selection
  import AnalysisImages

  /** The first three images are selected on mount. */
  function InitialSelection(): (sel: seq<string>)
    ensures |sel| == 3
    ensures forall i :: 0 <= i < 3 ==> sel[i] == AnalysisImages.Images[i].id
    ensures !Selection.IsAllSelected(sel, AnalysisImages.Ids())
    ensures Selection.Valid(sel, AnalysisImages.Ids())
  {
    AnalysisImages.Ids()[..3]
  }

  /** The random draws behind one violin: mean in [5, 9), spread in [2, 4). */
  datatype Draw = Draw(mean: real, spread: real)

  /** One violin: `value` is the height of the bar that frames the shape. */
  datatype Violin = Violin(id: string, mean: real, min: real, max: real, value: real)

  /** `generateViolinData(id)` followed by `value: data.max`. */
  function ViolinOf(id: string, d: Draw): (v: Violin)
    ensures v.id == id && v.mean == d.mean
    ensures v.value == v.max
    ensures d.mean >= 0.0 && d.spread >= 0.0 ==> 0.0 <= v.min <= v.mean <= v.max
    ensures v.min == 0.0 || v.min == d.mean - d.spread
    ensures v.min >= 0.0 && v.min >= d.mean - d.spread
    ensures v.max == d.mean + d.spread
  {
    var lo := d.mean - d.spread;
    Violin(id, d.mean, if lo > 0.0 then lo else 0.0, d.mean + d.spread, d.mean + d.spread)
  }

  /** `violinData`: one violin per selected id, in selection order; `draws`
      supplies the random numbers of each call. */
  function ViolinData(sel: seq<string>, draws: seq<Draw>): (r: seq<Violin>)
    requires |draws| == |sel|
    ensures |r| == |sel|
    ensures forall i :: 0 <= i < |sel| ==> r[i] == ViolinOf(sel[i], draws[i])
    ensures forall i :: 0 <= i < |sel| ==> r[i].id == sel[i] && r[i].value == r[i].max
    ensures forall i :: 0 <= i < |sel| && 5.0 <= draws[i].mean && 2.0 <= draws[i].spread ==>
              0.0 <= r[i].min <= r[i].mean <= r[i].max
  {
    seq(|sel|, i requires 0 <= i < |sel| => ViolinOf(sel[i], draws[i]))
  }
}

=== FILE: correlation_analysis.dfy ===
/** The correlation-analysis view: the image selection (initially every
    image), the three display switches, and the sampled regression line. */
module CorrelationAnalysis {
  import Seqs
  import Selection
  import AnalysisImages

  /** The three switches: regression line and logarithmic axes. */
  datatype Switches = Switches(showRegression: bool, logScaleX: bool, logScaleY: bool)

  /** The view's state: the image selection and the switches. */
  datatype View = View(selection: seq<string>, switches: Switches)

  /** On mount every image is selected and only the regression line is on. */
  function Initial(): (v: View)
    ensures Selection.IsAllSelected(v.selection, AnalysisImages.Ids())
    ensures Selection.Valid(v.selection, AnalysisImages.Ids())
    ensures v.switches.showRegression && !v.switches.logScaleX && !v.switches.logScaleY
  {
    View(AnalysisImages.Ids(), Switches(true, false, false))
  }

  datatype Switch = RegressionLine | LogX | LogY

  /** A click on a switch negates that switch and leaves the others. */
  function Flip(s: Switches, w: Switch): (r: Switches)
    ensures w == RegressionLine ==> r.showRegression == !s.showRegression && r.logScaleX == s.logScaleX && r.logScaleY == s.logScaleY
    ensures w == LogX ==> r.logScaleX == !s.logScaleX && r.showRegression == s.showRegression && r.logScaleY == s.logScaleY
    ensures w == LogY ==> r.logScaleY == !s.logScaleY && r.showRegression == s.showRegression && r.logScaleX == s.logScaleX
  {
    match w
    case RegressionLine => s.(showRegression := !s.showRegression)
    case LogX => s.(logScaleX := !s.logScaleX)
    case LogY => s.(logScaleY := !s.logScaleY)
  }

  /** Flipping a switch twice restores every switch. */
  lemma FlipTwice(s: Switches, w: Switch)
    ensures Flip(Flip(s, w), w) == s
  {
  }

  datatype Point = Point(x: real, y: real)

  /** The number of intervals the line is sampled at. */
  const Steps: nat := 20

  /** The smallest x of a non-empty list of points. */
  function MinX(data: seq<Point>): (m: real)
    requires |data| > 0
    ensures forall p :: p in data ==> m <= p.x
    decreases |data|
  {
    if |data| == 1 then data[0].x
    else
      var rest := MinX(data[1..]);
      assert data[1..][0] in data[1..];
      if data[0].x <= rest then data[0].x else rest
  }

  /** The largest x of a non-empty list of points. */
  function MaxX(data: seq<Point>): (m: real)
    requires |data| > 0
    ensures forall p :: p in data ==> p.x <= m
    decreases |data|
  {
    if |data| == 1 then data[0].x
    else
      var rest := MaxX(data[1..]);
      assert data[1..][0] in data[1..];
      if data[0].x >= rest then data[0].x else rest
  }

  /** The extremes are attained: some point has the smallest x, some the
      largest. */
  lemma {:induction false} ExtremesAttained(data: seq<Point>)
    requires |data| > 0
    ensures exists p :: p in data && p.x == MinX(data)
    ensures exists p :: p in data && p.x == MaxX(data)
    decreases |data|
  {
    if |data| > 1 {
      ExtremesAttained(data[1..]);
      assert forall p :: p in data[1..] ==> p in data;
      assert data[0] in data;
    } else {
      assert data[0] in data;
    }
  }

  /** The line drawn for a view state over the view's fixed scatter data. */
  function LineOf(v: View, data: seq<Point>, slope: real, intercept: real): (r: seq<Point>)
    ensures !v.switches.showRegression ==> r == []
    ensures v.switches.showRegression && |data| >= 2 ==> |r| == Steps + 1
  {
    Regression(v.switches.showRegression, data, slope, intercept)
  }

  /** The line depends on the regression switch and the data only: clicking
      images in or out of the selection leaves it as it was. */
  lemma LineIgnoresSelection(v: View, clicks: seq<Selection.Click<string>>, data: seq<Point>, slope: real, intercept: real)
    ensures var after := v.(selection := Selection.Run(v.selection, AnalysisImages.Ids(), clicks));
            LineOf(after, data, slope, intercept) == LineOf(v, data, slope, intercept)
  {
  }

  /** The `i`-th sample abscissa between `lo` and `hi`. */
  function SampleX(lo: real, hi: real, i: nat): real {
    lo + i as real * ((hi - lo) / Steps as real)
  }

  /** The point lies on the line `y = slope * x + intercept`. */
  predicate OnLine(p: Point, slope: real, intercept: real) {
    p.y == slope * p.x + intercept
  }

  /** `regressionData`: nothing when the line is hidden or there are fewer
      than two points; otherwise `Steps + 1` points on the line
      `y = slope * x + intercept`, from the smallest to the largest x. The
      fitted slope and intercept are inputs here; `RegressionShape` states
      the even spacing. */
  function Regression(show: bool, data: seq<Point>, slope: real, intercept: real): (r: seq<Point>)
    ensures !show || |data| < 2 ==> r == []
    ensures show && |data| >= 2 ==> |r| == Steps + 1
    ensures show && |data| >= 2 ==> r[0].x == MinX(data) && r[Steps].x == MaxX(data)
    ensures forall i :: 0 <= i < |r| ==> OnLine(r[i], slope, intercept)
  {
    if !show || |data| < 2 then []
    else
      var lo, hi := MinX(data), MaxX(data);
      assert data[0] in data;
      assert lo <= data[0].x <= hi;
      Line(lo, hi, slope, intercept)
  }

  /** A drawn line steps evenly from the smallest to the largest x and never
      leaves that range. */
  lemma RegressionShape(data: seq<Point>, slope: real, intercept: real)
    requires |data| >= 2
    ensures var r := Regression(true, data, slope, intercept);
            forall i :: 0 <= i < Steps ==> r[i + 1].x - r[i].x == (MaxX(data) - MinX(data)) / Steps as real
    ensures var r := Regression(true, data, slope, intercept);
            forall i :: 0 <= i < |r| ==> MinX(data) <= r[i].x <= MaxX(data)
  {
    assert data[0] in data;
    LineSpacing(MinX(data), MaxX(data), slope, intercept);
    LineInRange(MinX(data), MaxX(data), slope, intercept);
  }

  /** `Steps + 1` points of the line, the first at `lo` and the last at
      `hi`. */
  function Line(lo: real, hi: real, slope: real, intercept: real): (r: seq<Point>)
    requires lo <= hi
    ensures |r| == Steps + 1
    ensures r[0].x == lo && r[Steps].x == hi
    ensures forall i :: 0 <= i < |r| ==> OnLine(r[i], slope, intercept)
  {
    SampleEnds(lo, hi);
    seq(Steps + 1, i requires 0 <= i <= Steps => Point(SampleX(lo, hi, i), slope * SampleX(lo, hi, i) + intercept))
  }

  /** Consecutive samples of the line are one step apart. */
  lemma LineSpacing(lo: real, hi: real, slope: real, intercept: real)
    requires lo <= hi
    ensures var r := Line(lo, hi, slope, intercept);
            forall i :: 0 <= i < Steps ==> r[i + 1].x - r[i].x == (hi - lo) / Steps as real
  {
    var r := Line(lo, hi, slope, intercept);
    forall i | 0 <= i < Steps
      ensures r[i + 1].x - r[i].x == (hi - lo) / Steps as real
    {
      assert r[i].x == SampleX(lo, hi, i) && r[i + 1].x == SampleX(lo, hi, i + 1);
      SampleStep(lo, hi, i);
    }
  }

  /** Every sample of the line lies between `lo` and `hi`. */
  lemma LineInRange(lo: real, hi: real, slope: real, intercept: real)
    requires lo <= hi
    ensures var r := Line(lo, hi, slope, intercept);
            forall i :: 0 <= i < |r| ==> lo <= r[i].x <= hi
  {
    var r := Line(lo, hi, slope, intercept);
    forall i | 0 <= i < |r|
      ensures lo <= r[i].x <= hi
    {
      assert r[i].x == SampleX(lo, hi, i);
      SampleInRange(lo, hi, i);
    }
  }

  lemma SampleEnds(lo: real, hi: real)
    ensures SampleX(lo, hi, 0) == lo && SampleX(lo, hi, Steps) == hi
  {
  }

  lemma SampleStep(lo: real, hi: real, i: nat)
    ensures SampleX(lo, hi, i + 1) - SampleX(lo, hi, i) == (hi - lo) / Steps as real
  {
    var d := (hi - lo) / Steps as real;
    assert (i + 1) as real * d == i as real * d + d;
  }

  lemma SampleInRange(lo: real, hi: real, i: nat)
    requires lo <= hi && i <= Steps
    ensures lo <= SampleX(lo, hi, i) <= hi
  {
    var d := (hi - lo) / Steps as real;
    assert d >= 0.0;
    assert 0.0 <= i as real * d;
    assert i as real * d <= Steps as real * d by {
      assert (Steps - i) as real * d >= 0.0;
      assert Steps as real * d - i as real * d == (Steps - i) as real * d;
    }
    assert Steps as real * d == hi - lo;
  }
}

=== FILE: create_batch.dfy ===
/** The batch-creation page: the list of chosen files, removal by position,
    the guard on the create button and where the page leads. */
module CreateBatch {
  import opened Wrappers
  import Seqs
  import Routes

  /** A chosen file; only its name is modelled. */
  datatype File = File(name: string)

  /** The remove button of row `index`: every other file stays, in order. */
  function RemoveFile(files: seq<File>, index: int): (r: seq<File>)
    ensures 0 <= index < |files| ==> |r| == |files| - 1
    ensures 0 <= index < |files| ==> forall j :: 0 <= j < index ==> r[j] == files[j]
    ensures 0 <= index < |files| ==> forall j :: index <= j < |r| ==> r[j] == files[j + 1]
    ensures !(0 <= index < |files|) ==> r == files
  {
    Seqs.DropIndex(files, index)
  }

  /** Removing a file takes exactly one occurrence of it out of the list. */
  lemma RemoveFileMultiset(files: seq<File>, index: int)
    requires 0 <= index < |files|
    ensures multiset(RemoveFile(files, index)) + multiset{files[index]} == multiset(files)
  {
    assert files == files[..index] + [files[index]] + files[index + 1..];
  }

  /** The file picker: the picked files follow the existing ones; a picker
      closed without a selection changes nothing. */
  function AppendFiles(files: seq<File>, picked: Option<seq<File>>): (r: seq<File>)
    ensures picked.None? ==> r == files
    ensures picked.Some? ==> |r| == |files| + |picked.value|
    ensures picked.Some? ==> r[..|files|] == files && r[|files|..] == picked.value
  {
    match picked
    case None => files
    case Some(p) => files + p
  }

  /** Removing the last file just picked undoes a single-file pick. */
  lemma RemoveUndoesAppend(files: seq<File>, f: File)
    ensures RemoveFile(AppendFiles(files, Some([f])), |files|) == files
  {
    var a := AppendFiles(files, Some([f]));
    assert a[..|files|] == files;
  }

  /** The create button is disabled while the title is empty or no file is
      chosen. */
  predicate SubmitDisabled(title: string, files: seq<File>) {
    title == "" || |files| == 0
  }

  /** Submission leads to the overview of the new mock batch, whatever was
      entered. */
  const SubmitTarget: string := "/data/DB-NEW-001/overview"

  const BackTarget: string := "/dashboard?tab=data"

  /** The submit target is the overview page of batch `DB-NEW-001`, a
      workstation page. */
  lemma SubmitTargetIsOverview()
    ensures SubmitTarget == Routes.Path(Routes.DataOverview("DB-NEW-001"))
    ensures Routes.AnimationKey(SubmitTarget) == "workstation"
  {
    var r := Routes.DataOverview("DB-NEW-001");
    assert Routes.Path(r) == "/data/" + "DB-NEW-001" + "/overview";
    Routes.DataPageGroup(r);
  }

  /** A batch with a title and at least one file can be submitted; removing
      its only file disables the button again. */
  lemma RemovingLastFileDisables(title: string, f: File)
    ensures !SubmitDisabled(title, [f]) <==> title != ""
    ensures SubmitDisabled(title, RemoveFile([f], 0))
  {
  }
}

=== FILE: dashboard.dfy ===
/** The dashboard's task lists: the four-way filter applied to the analysis
    and fine-tuning task lists, the grid/list view mode read from the query,
    and where a click on a task leads. */
module Dashboard {
  import Seqs
  import Text
  import QueryParams
  import opened Wrappers
  import Routes
  import Sidebar
  import Upload

  /** A task record as listed on the dashboard. Status, type and date are the
      raw strings of the records, because the filter compares strings. */
  datatype Task = Task(
    id: string,
    name: string,
    date: string,
    items: nat,
    status: string,
    kind: string,
    model: string)

  /** The sentinel filter value that disables a check. */
  const AnyValue: string := "all"

  /** The mocked notion of "today" used by the time filter. */
  const Today: string := "2023-10-24"

  /** The date string of a running task. */
  const Running: string := "Running"

  /** Case-insensitive substring test of the search text against name or id. */
  predicate MatchesSearch(t: Task, search: string) {
    Text.Includes(Text.Lower(t.name), Text.Lower(search))
    || Text.Includes(Text.Lower(t.id), Text.Lower(search))
  }

  predicate MatchesStatus(t: Task, status: string) {
    status == AnyValue || t.status == status
  }

  predicate MatchesKind(t: Task, kind: string) {
    kind == AnyValue || t.kind == kind
  }

  /** Only `'today'` restricts; `'week'`, `'month'`, `'all'` and any other value
      keep every task. */
  predicate MatchesTime(t: Task, time: string) {
    if time == "today" then t.date == Running || t.date == Today
    else true
  }

  /** The test applied to each task by `filterTasks`. */
  predicate Keeps(t: Task, search: string, time: string, kind: string, status: string) {
    MatchesSearch(t, search) && MatchesStatus(t, status) && MatchesKind(t, kind) && MatchesTime(t, time)
  }

  function KeepTest(search: string, time: string, kind: string, status: string): Task -> bool {
    t => Keeps(t, search, time, kind, status)
  }

  /** `filterTasks(tasks, search, time, type, status)`. */
  function FilterTasks(tasks: seq<Task>, search: string, time: string, kind: string, status: string): (r: seq<Task>)
    ensures |r| <= |tasks|
    ensures forall t :: t in r <==> t in tasks && Keeps(t, search, time, kind, status)
    ensures status != AnyValue ==> forall t :: t in r ==> t.status == status
    ensures kind != AnyValue ==> forall t :: t in r ==> t.kind == kind
    ensures time == "today" ==> forall t :: t in r ==> t.date in {Running, Today}
    ensures tasks == [] ==> r == []
  {
    Seqs.Filter(tasks, KeepTest(search, time, kind, status))
  }

  /** The filter keeps the relative order: filtering a concatenation is the
      concatenation of the filtered parts. */
  lemma FilterTasksAppend(a: seq<Task>, b: seq<Task>, search: string, time: string, kind: string, status: string)
    ensures FilterTasks(a + b, search, time, kind, status)
         == FilterTasks(a, search, time, kind, status) + FilterTasks(b, search, time, kind, status)
  {
    Seqs.FilterAppend(a, b, KeepTest(search, time, kind, status));
  }

  /** Filtering the filtered list again with the same arguments changes nothing. */
  lemma FilterTasksIdempotent(tasks: seq<Task>, search: string, time: string, kind: string, status: string)
    ensures var once := FilterTasks(tasks, search, time, kind, status);
            FilterTasks(once, search, time, kind, status) == once
  {
    Seqs.FilterIdempotent(tasks, KeepTest(search, time, kind, status));
  }

  /** The empty search text matches every task. */
  lemma EmptySearchMatches(t: Task)
    ensures MatchesSearch(t, "")
  {
    assert Text.Lower("") == "";
    Text.IncludesEmpty(Text.Lower(t.name));
  }

  /** With the initial filter state (empty search, every filter `'all'`) the
      list is shown unchanged. */
  lemma InitialFiltersKeepAll(tasks: seq<Task>)
    ensures FilterTasks(tasks, "", AnyValue, AnyValue, AnyValue) == tasks
  {
    forall t | t in tasks
      ensures KeepTest("", AnyValue, AnyValue, AnyValue)(t)
    {
      EmptySearchMatches(t);
    }
    Seqs.FilterIdentity(tasks, KeepTest("", AnyValue, AnyValue, AnyValue));
  }

  /** The search ignores letter case: two searches with the same lower-case
      form select the same tasks. */
  lemma SearchIgnoresCase(tasks: seq<Task>, a: string, b: string, time: string, kind: string, status: string)
    requires Text.Lower(a) == Text.Lower(b)
    ensures FilterTasks(tasks, a, time, kind, status) == FilterTasks(tasks, b, time, kind, status)
  {
    Seqs.FilterCongruent(tasks, KeepTest(a, time, kind, status), KeepTest(b, time, kind, status));
  }

  /** The search is a substring test: a task passes it exactly when the
      lower-cased search text occurs in its lower-cased name or id. */
  lemma SearchIsSubstring(t: Task, search: string)
    ensures MatchesSearch(t, search) <==>
              (Text.Occurs(Text.Lower(t.name), Text.Lower(search))
               || Text.Occurs(Text.Lower(t.id), Text.Lower(search)))
  {
    Text.IncludesIffOccurs(Text.Lower(t.name), Text.Lower(search));
    Text.IncludesIffOccurs(Text.Lower(t.id), Text.Lower(search));
  }

  /** Any time value other than `'today'` imposes no restriction. */
  lemma OtherTimesKeepAll(tasks: seq<Task>, search: string, time: string, kind: string, status: string)
    requires time != "today"
    ensures FilterTasks(tasks, search, time, kind, status) == FilterTasks(tasks, search, AnyValue, kind, status)
  {
    Seqs.FilterCongruent(tasks, KeepTest(search, time, kind, status), KeepTest(search, AnyValue, kind, status));
  }

  /** Grid or list layout of the task lists. */
  datatype ViewMode = Grid | List

  /** `searchParams.get('view') || 'grid'`: the layout the dashboard renders;
      any value other than `'grid'` renders the list. */
  function RenderedView(q: QueryParams.Query): (r: ViewMode)
    ensures QueryParams.Get(q, "view").None? ==> r == Grid
    ensures QueryParams.Get(q, "view") == Some("list") ==> r == List
    ensures r == Grid <==> QueryParams.Get(q, "view") in {None, Some(""), Some("grid")}
  {
    if QueryParams.GetOr(q, "view", "grid") == "grid" then Grid else List
  }

  /** Clicking an analysis task: particle tasks open `/particles`, every other
      type opens `/fibers`. */
  function AnalysisTaskTarget(t: Task): (r: string)
    ensures t.kind == "particle" <==> r == "/particles"
    ensures r in {"/particles", "/fibers"}
  {
    if t.kind == "particle" then "/particles" else "/fibers"
  }

  /** An analysis task opens a path that the sidebar's prefix test reads as
      the task's mode, the same path "start" opens on the upload page for
      that type. The route table serves no page there. */
  lemma AnalysisTargetAnnouncesMode(t: Task)
    ensures Sidebar.ModeOfPath(AnalysisTaskTarget(t))
            == Some(if t.kind == "particle" then Sidebar.Particle else Sidebar.Fiber)
    ensures AnalysisTaskTarget(t)
            == Upload.StartTarget(Upload.State(if t.kind == "particle" then Upload.ParticleType else Upload.FiberType, "default"))
    ensures forall r :: Routes.ValidRoute(r) ==> Routes.Path(r) != AnalysisTaskTarget(t)
  {
    forall r | Routes.ValidRoute(r)
      ensures Routes.Path(r) != AnalysisTaskTarget(t)
    {
      Routes.ModePathsUnrouted(r);
    }
  }

  /** Clicking a fine-tuning task opens the fine-tuning page, whatever the
      task: a workstation page on which the sidebar shows its fine-tuning
      menu. */
  function TrainingTaskTarget(t: Task): (r: string)
    ensures r == Routes.Path(Routes.FineTune)
    ensures Routes.AnimationKey(r) == "workstation"
    ensures Sidebar.IsFineTuning(r)
  {
    FineTuneRouteIsWorkstation();
    "/finetune"
  }

  lemma FineTuneRouteIsWorkstation()
    ensures Routes.Path(Routes.FineTune) == "/finetune"
    ensures Routes.AnimationKey("/finetune") == "workstation"
  {
    Routes.Classification(Routes.FineTune);
  }

  /** The "new analysis" card opens the upload page. */
  const CreateAnalysisTarget: string := "/upload"

  /** The upload page is a dashboard page, and visiting it leaves the
      sidebar's sticky mode as it was. */
  lemma CreateAnalysisOpensUpload(s: Sidebar.State)
    ensures CreateAnalysisTarget == Routes.Path(Routes.Upload)
    ensures Routes.AnimationKey(CreateAnalysisTarget) == "dashboard"
    ensures Sidebar.ModeOfPath(CreateAnalysisTarget).None?
    ensures Sidebar.Effect(s, CreateAnalysisTarget) == s
  {
    assert CreateAnalysisTarget[1] != Sidebar.ParticlesPrefix[1];
    assert CreateAnalysisTarget[1] != Sidebar.FibersPrefix[1];
  }
}

=== FILE: fine_tuning.dfy ===
/** The fine-tuning workspace: which sub-view the `tab` parameter selects,
    the jump from a dataset to the annotation studio, and the mock training
    curve. */
module FineTuning {
  import opened Wrappers
  import QueryParams
  import Sidebar

  /** `get('tab') || 'settings'`. */
  function Tab(q: QueryParams.Query): (tab: string)
    ensures QueryParams.Get(q, "tab").None? ==> tab == "settings"
    ensures QueryParams.Get(q, "tab") == Some("") ==> tab == "settings"
    ensures QueryParams.Get(q, "tab").Some? && QueryParams.Get(q, "tab").value != "" ==> tab == QueryParams.Get(q, "tab").value
    ensures tab != ""
  {
    QueryParams.GetOr(q, "tab", "settings")
  }

  datatype SubView = TrainingDashboard | Configuration | DataManager | AnnotationStudio

  /** The sub-views rendered for the current tab: each is guarded by its own
      comparison, in this order. */
  function RenderedViews(q: QueryParams.Query): (views: seq<SubView>)
    ensures |views| <= 1
    ensures |views| == 1 <==> Tab(q) in {"training", "settings", "data", "annotation"}
  {
    var tab := Tab(q);
    (if tab == "training" then [TrainingDashboard] else [])
    + (if tab == "settings" then [Configuration] else [])
    + (if tab == "data" then [DataManager] else [])
    + (if tab == "annotation" then [AnnotationStudio] else [])
  }

  /** The sub-view belonging to each sidebar item. */
  function ViewOf(item: Sidebar.FineTuneItem): SubView {
    match item
    case Configuration => Configuration
    case TrainingDashboard => TrainingDashboard
    case DataManagement => DataManager
    case AnnotationStudio => AnnotationStudio
  }

  /** The sidebar highlights exactly the item whose sub-view is on screen. */
  lemma SidebarMatchesView(q: QueryParams.Query, item: Sidebar.FineTuneItem)
    ensures Sidebar.FineTuneActive(q, item) <==> RenderedViews(q) == [ViewOf(item)]
  {
    RenderedIffTab(q, item);
    match QueryParams.Get(q, "tab")
    case None =>
    case Some(v) =>
      if v != "" {
        assert Tab(q) == v;
      }
  }

  lemma RenderedIffTab(q: QueryParams.Query, item: Sidebar.FineTuneItem)
    ensures RenderedViews(q) == [ViewOf(item)] <==> Tab(q) == Sidebar.TabOf(item)
  {
    var tab := Tab(q);
    assert "training"[0] != "settings"[0];
    if tab == "training" {
      assert RenderedViews(q) == [TrainingDashboard];
    } else if tab == "settings" {
      assert RenderedViews(q) == [Configuration];
    } else if tab == "data" {
      assert RenderedViews(q) == [DataManager];
    } else if tab == "annotation" {
      assert RenderedViews(q) == [AnnotationStudio];
    } else {
      assert RenderedViews(q) == [];
    }
  }

  /** Following a sidebar item renders its sub-view and nothing else. */
  lemma ClickRendersView(item: Sidebar.FineTuneItem)
    ensures RenderedViews(Sidebar.ClickFineTune(item)) == [ViewOf(item)]
  {
    SidebarMatchesView(Sidebar.ClickFineTune(item), item);
  }

  /** "Annotate" on a dataset replaces the query with the annotation tab and
      the dataset's name. */
  function GoToAnnotation(dataset: string): (q: QueryParams.Query)
    ensures QueryParams.Get(q, "tab") == Some("annotation")
    ensures QueryParams.Get(q, "dataset") == Some(dataset)
    ensures forall p :: p in q ==> p.name in {"tab", "dataset"}
    ensures RenderedViews(q) == [AnnotationStudio]
  {
    QueryParams.FromPairs([("tab", "annotation"), ("dataset", dataset)])
  }

  /** One point of the training curve. */
  datatype Epoch = Epoch(epoch: nat, loss: real, accuracy: real)

  const Epochs: nat := 20
  const LossFloor: real := 0.1
  const AccuracyCeiling: real := 0.98

  /** `TRAINING_DATA`: `lossTerm(i)` and `accuracyTerm(i)` stand for the
      exponential-plus-noise expressions of epoch `i`; the loss is raised to
      at least 0.1 and the accuracy capped at 0.98. */
  function TrainingData(lossTerm: nat -> real, accuracyTerm: nat -> real): (data: seq<Epoch>)
    ensures |data| == Epochs
    ensures forall i :: 0 <= i < |data| ==> data[i].epoch == i + 1
    ensures forall i :: 0 <= i < |data| ==> data[i].loss >= LossFloor && data[i].accuracy <= AccuracyCeiling
    ensures forall i :: 0 <= i < |data| && lossTerm(i) >= LossFloor ==> data[i].loss == lossTerm(i)
    ensures forall i :: 0 <= i < |data| && accuracyTerm(i) <= AccuracyCeiling ==> data[i].accuracy == accuracyTerm(i)
  {
    seq(Epochs, i requires 0 <= i < Epochs =>
      Epoch(i + 1,
            if LossFloor > lossTerm(i) then LossFloor else lossTerm(i),
            if AccuracyCeiling < accuracyTerm(i) then AccuracyCeiling else accuracyTerm(i)))
  }

  /** The curves a training chart plots, as functions of the epoch index. */
  function LossCurve(data: seq<Epoch>): nat -> real {
    (i: nat) => if i < |data| then data[i].loss else LossFloor
  }

  function AccuracyCurve(data: seq<Epoch>): nat -> real {
    (i: nat) => if i < |data| then data[i].accuracy else AccuracyCeiling
  }

  /** The clamps are settled: feeding the generated curves back in as the
      random terms reproduces the same training data. */
  lemma TrainingDataStable(lossTerm: nat -> real, accuracyTerm: nat -> real)
    ensures var data := TrainingData(lossTerm, accuracyTerm);
            TrainingData(LossCurve(data), AccuracyCurve(data)) == data
  { }
}

=== FILE: footer.dfy ===
/** The global footer: its own dashboard test, the grid/list switch it
    writes into the query, its width, and the mock language switch. */
module Footer {
  import opened Wrappers
  import Text
  import QueryParams
  import Routes
  import Dashboard

  /** The footer's dashboard predicate, written out separately from the
      router's. */
  predicate IsDashboard(path: string) {
    Text.StartsWith(path, "/dashboard") || path == "/" || path == "/upload" || path == "/data/new"
  }

  /** The footer and the router group paths identically. */
  lemma SameAsRouter(path: string)
    ensures IsDashboard(path) <==> Routes.IsDashboardPath(path)
  {
  }

  /** `get('view') || 'list'`: the layout the switch highlights. */
  function ViewMode(q: QueryParams.Query): (m: string)
    ensures QueryParams.Get(q, "view").None? ==> m == "list"
    ensures QueryParams.Get(q, "view") == Some("") ==> m == "list"
    ensures QueryParams.Get(q, "view").Some? && QueryParams.Get(q, "view").value != "" ==> m == QueryParams.Get(q, "view").value
    ensures m != ""
  {
    QueryParams.GetOr(q, "view", "list")
  }

  /** Without a `view` parameter the footer highlights the list button while
      the dashboard renders the grid. */
  lemma DefaultsDisagree(q: QueryParams.Query)
    requires QueryParams.Get(q, "view").None?
    ensures ViewMode(q) == "list"
    ensures Dashboard.RenderedView(q) == Dashboard.Grid
  {
  }

  /** Once a layout has been chosen the two agree. */
  lemma ChosenViewAgrees(q: QueryParams.Query, m: string)
    requires m == "grid" || m == "list"
    ensures ViewMode(ToggleView(q, m)) == m
    ensures Dashboard.RenderedView(ToggleView(q, m)) == (if m == "grid" then Dashboard.Grid else Dashboard.List)
  {
    QueryParams.GetSet(q, "view", m, "view");
  }

  /** `toggleView(m)`: sets `view` in place. */
  function ToggleView(q: QueryParams.Query, m: string): (r: QueryParams.Query)
    ensures forall p :: p in r <==> p == QueryParams.Param("view", m) || (p in q && p.name != "view")
  {
    QueryParams.Set(q, "view", m)
  }

  /** The switch changes `view` and nothing else. */
  lemma ToggleViewKeepsOthers(q: QueryParams.Query, m: string, n: string)
    ensures QueryParams.Get(ToggleView(q, m), "view") == Some(m)
    ensures n != "view" ==> QueryParams.Get(ToggleView(q, m), n) == QueryParams.Get(q, n)
  {
    QueryParams.GetSet(q, "view", m, "view");
    QueryParams.GetSet(q, "view", m, n);
  }

  /** The footer's width: full width on dashboard pages, otherwise the
      sidebar's width, narrow when it is collapsed. */
  function Width(path: string, collapsed: bool): (w: string)
    ensures IsDashboard(path) <==> w == "100%"
    ensures !IsDashboard(path) ==> (w == "5rem" <==> collapsed)
    ensures w in {"100%", "5rem", "16rem"}
  {
    if IsDashboard(path) then "100%" else if collapsed then "5rem" else "16rem"
  }

  /** The dashboard controls (layout switch, language, documentation) are
      shown exactly on dashboard pages. */
  predicate ShowsControls(path: string) {
    IsDashboard(path)
  }

  const DocsTarget: string := "/docs"

  /** The documentation button leads to a workstation page, where the
      controls are hidden. */
  lemma DocsHidesControls()
    ensures !ShowsControls(DocsTarget)
    ensures Routes.AnimationKey(DocsTarget) == "workstation"
  {
    assert DocsTarget[2] != "/dashboard"[2];
  }

  datatype Language = En | Zh

  const InitialLanguage: Language := En

  function ToggleLanguage(l: Language): (r: Language)
    ensures r != l
  {
    if l == En then Zh else En
  }

  lemma ToggleLanguageTwice(l: Language)
    ensures ToggleLanguage(ToggleLanguage(l)) == l
  {
  }
}

=== FILE: header.dfy ===
/** The global header: its dashboard test, which leaves out `/data/new`,
    its width and the announcement ticker. */
module Header {
  import Text
  import Routes
  import Footer

  predicate IsDashboard(path: string) {
    Text.StartsWith(path, "/dashboard") || path == "/" || path == "/upload"
  }

  /** The header's test is the router's without `/data/new`: the two differ
      on that path and on no other. */
  lemma DiffersFromRouter(path: string)
    ensures IsDashboard(path) ==> Routes.IsDashboardPath(path)
    ensures (Routes.IsDashboardPath(path) && !IsDashboard(path)) <==> path == "/data/new"
  {
    if path == "/data/new" {
      assert path[3] != "/dashboard"[3];
    }
  }

  /** Full width on dashboard pages, the sidebar's width elsewhere; the
      header ignores the collapsed state. */
  function Width(path: string): (w: string)
    ensures IsDashboard(path) <==> w == "100%"
    ensures !IsDashboard(path) <==> w == "16rem"
  {
    if IsDashboard(path) then "100%" else "16rem"
  }

  /** The announcement ticker runs exactly on the header's dashboard pages. */
  predicate ShowsTicker(path: string) {
    IsDashboard(path)
  }

  /** On the batch-creation page the header is sidebar-wide and has no
      ticker, while the footer spans the page. */
  lemma CreateBatchPageMismatch(collapsed: bool)
    ensures Width("/data/new") == "16rem" && !ShowsTicker("/data/new")
    ensures Footer.Width("/data/new", collapsed) == "100%"
  {
    DiffersFromRouter("/data/new");
  }

  /** Everywhere else header and footer agree about full width. */
  lemma WidthsAgreeElsewhere(path: string, collapsed: bool)
    requires path != "/data/new"
    ensures Width(path) == "100%" <==> Footer.Width(path, collapsed) == "100%"
  {
    DiffersFromRouter(path);
    Footer.SameAsRouter(path);
  }
}

=== FILE: query_params.dfy ===
/** The query string of the current location, as the ordered list of
    name/value pairs that `URLSearchParams` keeps, with its `get` and `set`
    operations (section "URLSearchParams class" of the WHATWG URL Standard),
    and the `get(name) || fallback` idiom the views use to read it. */
module QueryParams {
  import opened Wrappers

  datatype Param = Param(name: string, value: string)

  type Query = seq<Param>

  /** `get(name)`: the value of the first pair with that name, `null` if none. */
  function Get(q: Query, name: string): (r: Option<string>)
    ensures r.None? <==> forall p :: p in q ==> p.name != name
    ensures r.Some? ==> Param(name, r.value) in q
    decreases |q|
  {
    if q == [] then None
    else if q[0].name == name then Some(q[0].value)
    else Get(q[1..], name)
  }

  /** `get` on a query with a known first pair. */
  lemma GetCons(p: Param, q: Query, name: string)
    ensures Get([p] + q, name) == if p.name == name then Some(p.value) else Get(q, name)
  {
    assert ([p] + q)[1..] == q;
  }

  /** The pairs of `q` whose name is not `name`, in order. */
  function Without(q: Query, name: string): (r: Query)
    ensures forall p :: p in r <==> p in q && p.name != name
    decreases |q|
  {
    if q == [] then []
    else (if q[0].name == name then [] else [q[0]]) + Without(q[1..], name)
  }

  /** Removing the pairs of one name does not change what `get` sees of another. */
  lemma {:induction false} GetWithout(q: Query, name: string, n: string)
    requires n != name
    ensures Get(Without(q, name), n) == Get(q, n)
    decreases |q|
  {
    if q != [] {
      GetWithout(q[1..], name, n);
      WithoutCons(q, name);
      if q[0].name != name {
        GetCons(q[0], Without(q[1..], name), n);
      }
    }
  }

  /** `Without` on a non-empty query, one pair at a time. */
  lemma WithoutCons(q: Query, name: string)
    requires q != []
    ensures q[0].name == name ==> Without(q, name) == Without(q[1..], name)
    ensures q[0].name != name ==> Without(q, name) == [q[0]] + Without(q[1..], name)
  {
    if q[0].name == name {
      assert [] + Without(q[1..], name) == Without(q[1..], name);
    }
  }

  /** `set(name, value)`: the first pair with that name takes the new value and
      the later ones are removed; without such a pair one is appended. */
  function Set(q: Query, name: string, value: string): (r: Query)
    ensures forall p :: p in r <==> p == Param(name, value) || (p in q && p.name != name)
    decreases |q|
  {
    if q == [] then [Param(name, value)]
    else if q[0].name == name then [Param(name, value)] + Without(q[1..], name)
    else [q[0]] + Set(q[1..], name, value)
  }

  /** After `set`, `get` of that name returns the new value and `get` of every
      other name is unchanged. */
  lemma {:induction false} GetSet(q: Query, name: string, value: string, n: string)
    ensures Get(Set(q, name, value), n) == if n == name then Some(value) else Get(q, n)
    decreases |q|
  {
    if q == [] {
      GetCons(Param(name, value), [], n);
    } else if q[0].name == name {
      GetCons(Param(name, value), Without(q[1..], name), n);
      if n != name {
        GetWithout(q[1..], name, n);
      }
    } else {
      GetCons(q[0], Set(q[1..], name, value), n);
      GetSet(q[1..], name, value, n);
    }
  }

  /** Setting the same pair twice is setting it once. */
  lemma {:induction false} SetIdempotent(q: Query, name: string, value: string)
    ensures Set(Set(q, name, value), name, value) == Set(q, name, value)
    decreases |q|
  {
    if q == [] {
      assert Set([Param(name, value)], name, value) == [Param(name, value)] + Without([], name);
    } else if q[0].name == name {
      var w := Without(q[1..], name);
      assert ([Param(name, value)] + w)[1..] == w;
      WithoutIdempotent(q[1..], name);
    } else {
      var t := Set(q[1..], name, value);
      assert ([q[0]] + t)[1..] == t;
      SetIdempotent(q[1..], name, value);
    }
  }

  lemma WithoutIdempotent(q: Query, name: string)
    ensures Without(Without(q, name), name) == Without(q, name)
  {
    WithoutNothing(Without(q, name), name);
  }

  /** Removing a name that does not occur changes nothing. */
  lemma {:induction false} WithoutNothing(q: Query, name: string)
    requires forall p :: p in q ==> p.name != name
    ensures Without(q, name) == q
    decreases |q|
  {
    if q != [] {
      assert q[0] in q;
      assert forall p :: p in q[1..] ==> p in q;
      WithoutNothing(q[1..], name);
      WithoutCons(q, name);
      assert q == [q[0]] + q[1..];
    }
  }

  /** `get(name) || fallback`: JavaScript's `||` also replaces the empty string. */
  function GetOr(q: Query, name: string, fallback: string): (r: string)
    ensures Get(q, name).None? ==> r == fallback
    ensures Get(q, name) == Some("") ==> r == fallback
    ensures Get(q, name).Some? && Get(q, name).value != "" ==> r == Get(q, name).value
  {
    match Get(q, name)
    case Some(v) => if v == "" then fallback else v
    case None => fallback
  }

  /** The query built from an object literal `{ n1: v1, ... }`. */
  function FromPairs(pairs: seq<(string, string)>): (r: Query)
    ensures |r| == |pairs|
    ensures forall i :: 0 <= i < |pairs| ==> r[i] == Param(pairs[i].0, pairs[i].1)
  {
    seq(|pairs|, i requires 0 <= i < |pairs| => Param(pairs[i].0, pairs[i].1))
  }
}

=== FILE: routes.dfy ===
/** The application's route table: which pages it serves, which of them are
    "dashboard" pages for the page-transition key, and the three redirects. */
module Routes {
  import opened Wrappers
  import Text

  /** The dashboard predicate of the router: a `/dashboard` prefix, or one of
      `/`, `/upload`, `/data/new` exactly. */
  predicate IsDashboardPath(path: string) {
    Text.StartsWith(path, "/dashboard") || path == "/" || path == "/upload" || path == "/data/new"
  }

  /** The key the page transitions are grouped under. */
  function AnimationKey(path: string): (key: string)
    ensures key == "dashboard" <==> IsDashboardPath(path)
    ensures key == "workstation" <==> !IsDashboardPath(path)
  {
    if IsDashboardPath(path) then "dashboard" else "workstation"
  }

  /** The pages of the route table, with the path parameters they bind. */
  datatype Route =
    | Root
    | Dashboard
    | Upload
    | DataNew
    | Docs
    | DataIndex(batchId: string)
    | DataOverview(batchId: string)
    | DataBrowser(batchId: string)
    | DataTasks(batchId: string)
    | TaskParticles(taskId: string)
    | TaskFibers(taskId: string)
    | AnalysisIndex(taskId: string)
    | AnalysisAttribute(taskId: string)
    | AnalysisCorrelation(taskId: string)
    | AnalysisComparison(taskId: string)
    | AnalysisTaskComparison(taskId: string)
    | FineTune
    | TaskReports(taskId: string)

  /** A path parameter matches one non-empty segment. */
  predicate Segment(s: string) {
    |s| > 0 && forall i :: 0 <= i < |s| ==> s[i] != '/'
  }

  /** Routes whose parameters are single segments; `/data/new` is served by
      its own page, so `new` is not a batch id of the data pages. */
  predicate ValidRoute(r: Route) {
    match r
    case DataIndex(b) => Segment(b) && b != "new"
    case DataOverview(b) => Segment(b)
    case DataBrowser(b) => Segment(b)
    case DataTasks(b) => Segment(b)
    case TaskParticles(t) => Segment(t)
    case TaskFibers(t) => Segment(t)
    case AnalysisIndex(t) => Segment(t)
    case AnalysisAttribute(t) => Segment(t)
    case AnalysisCorrelation(t) => Segment(t)
    case AnalysisComparison(t) => Segment(t)
    case AnalysisTaskComparison(t) => Segment(t)
    case TaskReports(t) => Segment(t)
    case _ => true
  }

  predicate IsTaskRoute(r: Route) {
    r.TaskParticles? || r.TaskFibers? || r.AnalysisIndex? || r.AnalysisAttribute?
    || r.AnalysisCorrelation? || r.AnalysisComparison? || r.AnalysisTaskComparison? || r.TaskReports?
  }

  predicate IsDataRoute(r: Route) {
    r.DataIndex? || r.DataOverview? || r.DataBrowser? || r.DataTasks?
  }

  /** The part of a task path after the task id. */
  function TaskSuffix(r: Route): (s: string)
    requires IsTaskRoute(r)
    ensures |s| > 0 && s[0] == '/'
  {
    match r
    case TaskParticles(_) => "/particles"
    case TaskFibers(_) => "/fibers"
    case AnalysisIndex(_) => "/analysis"
    case AnalysisAttribute(_) => "/analysis/attribute"
    case AnalysisCorrelation(_) => "/analysis/correlation"
    case AnalysisComparison(_) => "/analysis/comparison"
    case AnalysisTaskComparison(_) => "/analysis/task_comparison"
    case TaskReports(_) => "/reports"
  }

  /** The part of a data path after the batch id. */
  function DataSuffix(r: Route): string
    requires IsDataRoute(r)
  {
    match r
    case DataIndex(_) => ""
    case DataOverview(_) => "/overview"
    case DataBrowser(_) => "/browser"
    case DataTasks(_) => "/tasks"
  }

  /** The path a route serves. */
  function Path(r: Route): (p: string)
    ensures |p| > 0 && p[0] == '/'
    ensures IsTaskRoute(r) ==> p == "/" + r.taskId + TaskSuffix(r)
    ensures IsDataRoute(r) ==> p == "/data/" + r.batchId + DataSuffix(r)
  {
    match r
    case Root => "/"
    case Dashboard => "/dashboard"
    case Upload => "/upload"
    case DataNew => "/data/new"
    case Docs => "/docs"
    case FineTune => "/finetune"
    case DataIndex(b) => "/data/" + b + DataSuffix(r)
    case DataOverview(b) => "/data/" + b + DataSuffix(r)
    case DataBrowser(b) => "/data/" + b + DataSuffix(r)
    case DataTasks(b) => "/data/" + b + DataSuffix(r)
    case _ => "/" + r.taskId + TaskSuffix(r)
  }

  /** The intended grouping, by page: the four dashboard pages, and the task
      pages of a task whose id begins with `dashboard`. */
  predicate DashboardRoute(r: Route) {
    r.Root? || r.Dashboard? || r.Upload? || r.DataNew?
    || (IsTaskRoute(r) && Text.StartsWith(r.taskId, "dashboard"))
  }

  /** The path test groups every page as intended: the docs, fine-tuning,
      data and task pages are workstation pages, except the task pages of a
      task id that begins with `dashboard`. */
  lemma Classification(r: Route)
    requires ValidRoute(r)
    ensures IsDashboardPath(Path(r)) <==> DashboardRoute(r)
    ensures AnimationKey(Path(r)) == (if DashboardRoute(r) then "dashboard" else "workstation")
  {
    if IsTaskRoute(r) {
      TaskPageGroup(r);
    } else if IsDataRoute(r) {
      DataPageGroup(r);
    } else if r.Docs? {
      assert Path(r)[2] != "/dashboard"[2];
    } else if r.FineTune? {
      assert Path(r)[1] != "/dashboard"[1];
    }
  }

  /** A task page is a dashboard page exactly when its task id begins with
      `dashboard`. */
  lemma TaskPageGroup(r: Route)
    requires ValidRoute(r) && IsTaskRoute(r)
    ensures IsDashboardPath(Path(r)) <==> Text.StartsWith(r.taskId, "dashboard")
  {
    var p := Path(r);
    TaskPathPrefix(r.taskId, TaskSuffix(r));
    assert p != "/" && p != "/upload" && p != "/data/new" by {
      assert p[1] == r.taskId[0] && r.taskId[0] != '/';
      assert 1 + |r.taskId| < |p| && p[1 + |r.taskId|] == '/';
    }
  }

  /** Every data page is a workstation page. */
  lemma DataPageGroup(r: Route)
    requires ValidRoute(r) && IsDataRoute(r)
    ensures !IsDashboardPath(Path(r))
  {
    var p := Path(r);
    assert p[3] == 't';
    assert p[6..] == r.batchId + DataSuffix(r);
    assert p != "/data/new" by {
      if r.DataIndex? {
        assert r.batchId + DataSuffix(r) == r.batchId;
      } else {
        assert |p| > |"/data/new"|;
      }
    }
  }

  /** A task path `/<id><suffix>` begins with `/dashboard` exactly when the
      segment `id` begins with `dashboard`. */
  lemma TaskPathPrefix(id: string, suffix: string)
    requires Segment(id) && |suffix| > 0 && suffix[0] == '/'
    ensures Text.StartsWith("/" + id + suffix, "/dashboard") <==> Text.StartsWith(id, "dashboard")
  {
    SegmentPrefix(id, suffix, "dashboard");
  }

  /** A prefix test on `/<id>/…` with a one-segment word `w` is the prefix
      test of `w` on the id: the `/` after the id stops a shorter id. */
  lemma {:induction false} SegmentPrefix(id: string, suffix: string, w: string)
    requires Segment(id) && |suffix| > 0 && suffix[0] == '/' && Segment(w)
    ensures Text.StartsWith("/" + id + suffix, "/" + w) <==> Text.StartsWith(id, w)
  {
    var p := "/" + id + suffix;
    var pw := "/" + w;
    var n := |pw|;
    if |id| >= |w| {
      assert p[1..n] == id[..|w|];
      if Text.StartsWith(p, pw) {
        assert p[..n][1..] == p[1..n];
        assert pw[1..] == w;
      }
      if Text.StartsWith(id, w) {
        assert p[..n] == "/" + id[..|w|];
      }
    } else {
      assert !Text.StartsWith(id, w);
      if |p| >= n {
        assert p[1 + |id|] == '/';
        assert p[..n][1 + |id|] == '/';
        assert pw[1 + |id|] == w[|id|];
      }
    }
  }

  /** No page of the table is served at `/particles` or `/fibers`: a task
      path has a second `/` right after its id, a data path one after
      `/data`, and the fixed paths are other words. */
  lemma ModePathsUnrouted(r: Route)
    requires ValidRoute(r)
    ensures Path(r) != "/particles" && Path(r) != "/fibers"
  {
    var p := Path(r);
    if IsTaskRoute(r) {
      var k := 1 + |r.taskId|;
      assert k < |p| && p[k] == '/';
      assert Segment("particles") && Segment("fibers");
      assert p != "/particles" by {
        if |p| == |"/particles"| { assert "/particles"[k] == "particles"[k - 1]; }
      }
      assert |TaskSuffix(r)| >= 7;
    } else if IsDataRoute(r) {
      assert |p| > 5 && p[5] == '/';
    }
  }

  /** The three redirects of the table: `/` to `/dashboard`, the data index
      to its overview and the analysis index to its attribute page. */
  function Redirect(r: Route): (target: Option<Route>)
    ensures r.Root? ==> target == Some(Dashboard)
    ensures r.DataIndex? ==> target == Some(DataOverview(r.batchId))
    ensures r.AnalysisIndex? ==> target == Some(AnalysisAttribute(r.taskId))
    ensures !(r.Root? || r.DataIndex? || r.AnalysisIndex?) ==> target.None?
  {
    match r
    case Root => Some(Dashboard)
    case DataIndex(b) => Some(DataOverview(b))
    case AnalysisIndex(t) => Some(AnalysisAttribute(t))
    case _ => None
  }

  /** A redirect lands on a page that does not redirect again, under the
      relative target (the index path followed by `/overview` or
      `/attribute`), and in the same transition group. */
  lemma RedirectSettles(r: Route)
    requires ValidRoute(r) && Redirect(r).Some?
    ensures Redirect(Redirect(r).value).None?
    ensures ValidRoute(Redirect(r).value)
    ensures !r.Root? ==> Path(Redirect(r).value) == Path(r) + (if r.DataIndex? then "/overview" else "/attribute")
    ensures AnimationKey(Path(Redirect(r).value)) == AnimationKey(Path(r))
  {
    match r
    case Root =>
      RootRedirect();
    case DataIndex(b) =>
      DataRedirect(b);
    case AnalysisIndex(t) =>
      AnalysisRedirect(t);
  }

  lemma RootRedirect()
    ensures Redirect(Root) == Some(Dashboard) && Redirect(Dashboard).None? && ValidRoute(Dashboard)
    ensures AnimationKey(Path(Dashboard)) == AnimationKey(Path(Root)) == "dashboard"
  {
  }

  lemma DataRedirect(b: string)
    requires ValidRoute(DataIndex(b))
    ensures Redirect(DataIndex(b)) == Some(DataOverview(b))
    ensures Redirect(DataOverview(b)).None? && ValidRoute(DataOverview(b))
    ensures Path(DataOverview(b)) == Path(DataIndex(b)) + "/overview"
    ensures AnimationKey(Path(DataOverview(b))) == AnimationKey(Path(DataIndex(b))) == "workstation"
  {
    DataPageGroup(DataIndex(b));
    DataPageGroup(DataOverview(b));
    assert Path(DataIndex(b)) == "/data/" + b;
  }

  lemma AnalysisRedirect(t: string)
    requires ValidRoute(AnalysisIndex(t))
    ensures Redirect(AnalysisIndex(t)) == Some(AnalysisAttribute(t))
    ensures Redirect(AnalysisAttribute(t)).None? && ValidRoute(AnalysisAttribute(t))
    ensures Path(AnalysisAttribute(t)) == Path(AnalysisIndex(t)) + "/attribute"
    ensures AnimationKey(Path(AnalysisAttribute(t))) == AnimationKey(Path(AnalysisIndex(t)))
  {
    TaskPageGroup(AnalysisIndex(t));
    TaskPageGroup(AnalysisAttribute(t));
    AnalysisPaths(t);
  }

  lemma AnalysisPaths(t: string)
    ensures Path(AnalysisAttribute(t)) == Path(AnalysisIndex(t)) + "/attribute"
  {
    var prefix := "/" + t;
    assert Path(AnalysisIndex(t)) == prefix + TaskSuffix(AnalysisIndex(t));
    assert Path(AnalysisAttribute(t)) == prefix + TaskSuffix(AnalysisAttribute(t));
    assert TaskSuffix(AnalysisAttribute(t)) == TaskSuffix(AnalysisIndex(t)) + "/attribute";
    AppendSuffix(prefix, TaskSuffix(AnalysisIndex(t)), "/attribute");
  }

  lemma AppendSuffix(p: string, a: string, b: string)
    ensures p + (a + b) == (p + a) + b
  {
  }
}

=== FILE: selection.dfy ===
/** The image-selection list that the attribute, comparison, correlation and
    task-comparison views each keep: a list of ids with a toggle, a
    select-all/deselect-all toggle and an "all selected" test by length. */
module Selection {
  import Seqs

  /** The test `imgId => imgId !== id` passed to `filter`. */
  function Unequal<T(==)>(id: T): T -> bool {
    x => x != id
  }

  /** `toggleImage(id)`: removes `id` if present, otherwise appends it. */
  function Toggle<T(==,!new)>(sel: seq<T>, id: T): (r: seq<T>)
    ensures id in r <==> id !in sel
    ensures forall x :: x != id ==> (x in r <==> x in sel)
    ensures id !in sel ==> r == sel + [id]
    ensures id in sel ==> r == Seqs.Filter(sel, Unequal(id))
  {
    if id in sel then Seqs.Filter(sel, Unequal(id)) else sel + [id]
  }

  /** `isAllSelected`: decided by comparing lengths only. */
  predicate IsAllSelected<T>(sel: seq<T>, all: seq<T>) {
    |sel| == |all|
  }

  /** `toggleSelectAll()`: clears a full selection, otherwise selects every id
      in the order of `all`. */
  function ToggleAll<T>(sel: seq<T>, all: seq<T>): (r: seq<T>)
    ensures IsAllSelected(sel, all) ==> r == []
    ensures !IsAllSelected(sel, all) ==> r == all
  {
    if IsAllSelected(sel, all) then [] else all
  }

  /** The invariant of a selection: duplicate-free and drawn from `all`. */
  ghost predicate Valid<T>(sel: seq<T>, all: seq<T>) {
    Seqs.NoDup(sel) && forall x :: x in sel ==> x in all
  }

  /** Toggling an id that the view offers keeps the selection valid. */
  lemma ToggleValid<T(!new)>(sel: seq<T>, all: seq<T>, id: T)
    requires Valid(sel, all) && id in all
    ensures Valid(Toggle(sel, id), all)
  {
    if id in sel {
      Seqs.FilterNoDup(sel, Unequal(id));
    }
  }

  /** Toggling the same id twice keeps the same ids; the list itself comes
      back unchanged exactly when the id was not selected (otherwise it moves
      to the end). */
  lemma ToggleTwice<T(!new)>(sel: seq<T>, id: T)
    requires Seqs.NoDup(sel)
    ensures Seqs.Elems(Toggle(Toggle(sel, id), id)) == Seqs.Elems(sel)
    ensures id !in sel ==> Toggle(Toggle(sel, id), id) == sel
  {
    if id !in sel {
      Seqs.FilterIdentity(sel, Unequal(id));
      Seqs.FilterAppend(sel, [id], Unequal(id));
      assert Seqs.Filter([id], Unequal(id)) == [];
    }
  }

  /** Select-all/deselect-all keeps a valid selection valid when the list of
      all ids is duplicate-free. */
  lemma ToggleAllValid<T>(sel: seq<T>, all: seq<T>)
    requires Seqs.NoDup(all)
    ensures Valid(ToggleAll(sel, all), all)
  {
  }

  /** For a valid selection the length test means that every id is selected. */
  lemma {:induction false} AllSelectedIffEvery<T>(sel: seq<T>, all: seq<T>)
    requires Seqs.NoDup(all) && Valid(sel, all)
    ensures IsAllSelected(sel, all) <==> Seqs.Elems(sel) == Seqs.Elems(all)
  {
    Seqs.DistinctCard(sel);
    Seqs.DistinctCard(all);
    if IsAllSelected(sel, all) {
      Seqs.SubsetSameCard(Seqs.Elems(sel), Seqs.Elems(all));
    }
  }

  /** A click in the selection list: one image, or the select-all button. */
  datatype Click<T> = Image(id: T) | All

  /** The selection after a sequence of clicks. */
  function Run<T(==,!new)>(sel: seq<T>, all: seq<T>, clicks: seq<Click<T>>): seq<T>
    decreases |clicks|
  {
    if clicks == [] then sel
    else
      var next := match clicks[0]
        case Image(id) => Toggle(sel, id)
        case All => ToggleAll(sel, all);
      Run(next, all, clicks[1..])
  }

  /** Clicks on offered images and on select-all keep the selection a
      duplicate-free subset of `all`. */
  lemma {:induction false} RunValid<T(!new)>(sel: seq<T>, all: seq<T>, clicks: seq<Click<T>>)
    requires Seqs.NoDup(all) && Valid(sel, all)
    requires forall c :: c in clicks && c.Image? ==> c.id in all
    ensures Valid(Run(sel, all, clicks), all)
    decreases |clicks|
  {
    if clicks != [] {
      match clicks[0]
      case Image(id) =>
        ToggleValid(sel, all, id);
        assert clicks[0] in clicks;
        RunValid(Toggle(sel, id), all, clicks[1..]);
      case All =>
        ToggleAllValid(sel, all);
        RunValid(ToggleAll(sel, all), all, clicks[1..]);
    }
  }

  /** From a valid initial selection, any clicks on offered images and on
      select-all leave a valid selection, on which the length test of
      `isAllSelected` means that every image is selected. */
  lemma ReachableSelection<T(!new)>(init: seq<T>, all: seq<T>, clicks: seq<Click<T>>)
    requires Seqs.NoDup(all) && Valid(init, all)
    requires forall c :: c in clicks && c.Image? ==> c.id in all
    ensures var sel := Run(init, all, clicks);
            Valid(sel, all) && (IsAllSelected(sel, all) <==> Seqs.Elems(sel) == Seqs.Elems(all))
  {
    RunValid(init, all, clicks);
    AllSelectedIffEvery(Run(init, all, clicks), all);
  }
}

=== FILE: seqs.dfy ===
/** Sequence operations shared by the views: the order-preserving filter that
    stands for JavaScript's `Array.prototype.filter`, duplicate-freedom, and
    removal by position. */
module Seqs {

  /** No element occurs twice. */
  ghost predicate NoDup<T>(s: seq<T>) {
    forall i, j :: 0 <= i < j < |s| ==> s[i] != s[j]
  }

  /** The set of elements of `s`. */
  function Elems<T>(s: seq<T>): set<T> {
    set x | x in s
  }

  /** `Array.prototype.filter`: the elements of `s` satisfying `keep`, in order. */
  function Filter<T(!new)>(s: seq<T>, keep: T -> bool): (r: seq<T>)
    ensures |r| <= |s|
    ensures forall x :: x in r <==> x in s && keep(x)
    decreases |s|
  {
    if s == [] then []
    else (if keep(s[0]) then [s[0]] else []) + Filter(s[1..], keep)
  }

  /** The filter keeps every occurrence of a passing element and no
      occurrence of a failing one. */
  lemma {:induction false} FilterCount<T(!new)>(s: seq<T>, keep: T -> bool, x: T)
    ensures multiset(Filter(s, keep))[x] == if keep(x) then multiset(s)[x] else 0
    decreases |s|
  {
    if s != [] {
      assert s == [s[0]] + s[1..];
      FilterCount(s[1..], keep, x);
    }
  }

  /** Filtering a concatenation filters each part: together with the
      one-element case this says the filter keeps the relative order. */
  lemma {:induction false} FilterAppend<T(!new)>(a: seq<T>, b: seq<T>, keep: T -> bool)
    ensures Filter(a + b, keep) == Filter(a, keep) + Filter(b, keep)
    decreases |a|
  {
    if a == [] {
      assert a + b == b;
    } else {
      var head := if keep(a[0]) then [a[0]] else [];
      assert (a + b)[0] == a[0];
      assert (a + b)[1..] == a[1..] + b;
      FilterAppend(a[1..], b, keep);
      calc {
        Filter(a + b, keep);
        head + Filter(a[1..] + b, keep);
        head + (Filter(a[1..], keep) + Filter(b, keep));
        (head + Filter(a[1..], keep)) + Filter(b, keep);
        Filter(a, keep) + Filter(b, keep);
      }
    }
  }

  /** The filter returns its input exactly when every element passes. */
  lemma FilterIdentity<T(!new)>(s: seq<T>, keep: T -> bool)
    ensures Filter(s, keep) == s <==> forall x :: x in s ==> keep(x)
  {
    if forall x :: x in s ==> keep(x) {
      FilterAllPass(s, keep);
    }
  }

  lemma {:induction false} FilterAllPass<T(!new)>(s: seq<T>, keep: T -> bool)
    requires forall x :: x in s ==> keep(x)
    ensures Filter(s, keep) == s
    decreases |s|
  {
    if s != [] {
      assert s[0] in s;
      assert forall x :: x in s[1..] ==> x in s;
      FilterAllPass(s[1..], keep);
      assert s == [s[0]] + s[1..];
    }
  }

  /** Two tests that agree on the elements of `s` filter it alike. */
  lemma {:induction false} FilterCongruent<T(!new)>(s: seq<T>, f: T -> bool, g: T -> bool)
    requires forall x :: x in s ==> f(x) == g(x)
    ensures Filter(s, f) == Filter(s, g)
    decreases |s|
  {
    if s != [] {
      assert s[0] in s;
      assert forall x :: x in s[1..] ==> x in s;
      FilterCongruent(s[1..], f, g);
    }
  }

  /** Filtering twice with the same test is filtering once. */
  lemma FilterIdempotent<T(!new)>(s: seq<T>, keep: T -> bool)
    ensures Filter(Filter(s, keep), keep) == Filter(s, keep)
  {
    FilterIdentity(Filter(s, keep), keep);
  }

  /** A filter of a duplicate-free sequence is duplicate-free. */
  lemma {:induction false} FilterNoDup<T(!new)>(s: seq<T>, keep: T -> bool)
    requires NoDup(s)
    ensures NoDup(Filter(s, keep))
    decreases |s|
  {
    if s != [] {
      FilterNoDup(s[1..], keep);
      assert s[0] !in s[1..];
    }
  }

  /** `rel` holds of every pair of elements in the order they appear. */
  ghost predicate Pairwise<T>(s: seq<T>, rel: (T, T) -> bool) {
    forall i, j :: 0 <= i < j < |s| ==> rel(s[i], s[j])
  }

  /** A filter keeps every ordered pair of the elements it keeps. */
  lemma {:induction false} FilterPairwise<T(!new)>(s: seq<T>, keep: T -> bool, rel: (T, T) -> bool)
    requires Pairwise(s, rel)
    ensures Pairwise(Filter(s, keep), rel)
    decreases |s|
  {
    if s != [] {
      var rest := Filter(s[1..], keep);
      FilterPairwise(s[1..], keep, rel);
      if keep(s[0]) {
        var r := [s[0]] + rest;
        forall i, j | 0 <= i < j < |r|
          ensures rel(r[i], r[j])
        {
          if i == 0 {
            assert r[j] == rest[j - 1] && rest[j - 1] in s[1..];
            var k :| 0 <= k < |s[1..]| && s[1..][k] == rest[j - 1];
            assert s[k + 1] == r[j];
          } else {
            assert r[i] == rest[i - 1] && r[j] == rest[j - 1];
          }
        }
      }
    }
  }

  /** `s.filter((_, j) => j !== i)`: drops the element at position `i`, if any. */
  function DropIndex<T>(s: seq<T>, i: int): (r: seq<T>)
    ensures 0 <= i < |s| ==> r == s[..i] + s[i + 1..]
    ensures !(0 <= i < |s|) ==> r == s
    decreases |s|
  {
    if s == [] then []
    else (if i == 0 then [] else [s[0]]) + DropIndex(s[1..], i - 1)
  }

  /** A duplicate-free sequence has as many distinct elements as positions. */
  lemma {:induction false} DistinctCard<T>(s: seq<T>)
    requires NoDup(s)
    ensures |Elems(s)| == |s|
    decreases |s|
  {
    if s != [] {
      assert Elems(s) == {s[0]} + Elems(s[1..]);
      assert s[0] !in Elems(s[1..]);
      DistinctCard(s[1..]);
    }
  }

  /** A subset with the cardinality of its superset is the superset. */
  lemma SubsetSameCard<T>(a: set<T>, b: set<T>)
    requires a <= b && |a| == |b|
    ensures a == b
  {
    if a != b {
      var y :| y in b && y !in a;
      assert a <= b - {y};
      assert |b - {y}| == |b| - 1;
      SubsetCard(a, b - {y});
    }
  }

  lemma {:induction false} SubsetCard<T>(a: set<T>, b: set<T>)
    requires a <= b
    ensures |a| <= |b|
    decreases b
  {
    if a != {} {
      var y :| y in a;
      SubsetCard(a - {y}, b - {y});
    }
  }
}

=== FILE: sidebar.dfy ===
/** The workstation sidebar: the sticky particle/fiber mode and its stored
    copy, which items are shown and which is highlighted, and the query
    updates its buttons make. */
module Sidebar {
  import opened Wrappers
  import Text
  import QueryParams
  import Routes

  datatype Mode = Particle | Fiber

  /** The sidebar's `mode` and the value under the stored-mode key of the
      browser's local storage (`None` when the key is absent). */
  datatype State = State(mode: Option<Mode>, stored: Option<Mode>)

  const ParticlesPrefix: string := "/particles"
  const FibersPrefix: string := "/fibers"

  /** The mode a path announces: a `/particles` prefix is checked first, then
      `/fibers`. */
  function ModeOfPath(path: string): (r: Option<Mode>)
    ensures r == Some(Particle) <==> Text.StartsWith(path, ParticlesPrefix)
    ensures r == Some(Fiber) <==> !Text.StartsWith(path, ParticlesPrefix) && Text.StartsWith(path, FibersPrefix)
    ensures r.None? <==> !Text.StartsWith(path, ParticlesPrefix) && !Text.StartsWith(path, FibersPrefix)
  {
    if Text.StartsWith(path, ParticlesPrefix) then Some(Particle)
    else if Text.StartsWith(path, FibersPrefix) then Some(Fiber)
    else None
  }

  /** The lazy initial value of `mode`: the path's mode, else the stored one. */
  function InitMode(path: string, stored: Option<Mode>): (r: Option<Mode>)
    ensures ModeOfPath(path).Some? ==> r == ModeOfPath(path)
    ensures ModeOfPath(path).None? ==> r == stored
  {
    match ModeOfPath(path)
    case Some(m) => Some(m)
    case None => stored
  }

  /** The effect run whenever the path changes: a mode path sets both the
      mode and the stored key; any other path changes neither. */
  function Effect(s: State, path: string): (r: State)
    ensures ModeOfPath(path).Some? ==> r.mode == ModeOfPath(path) && r.stored == ModeOfPath(path)
    ensures ModeOfPath(path).None? ==> r == s
  {
    match ModeOfPath(path)
    case Some(m) => State(Some(m), Some(m))
    case None => s
  }

  /** Mounting on `path` with `stored` in storage: the initializer, then the
      effect for the first render. */
  function Mount(path: string, stored: Option<Mode>): State {
    Effect(State(InitMode(path, stored), stored), path)
  }

  /** The effect run for each later path, in order. */
  function Visit(s: State, paths: seq<string>): State
    decreases |paths|
  {
    if paths == [] then s else Visit(Effect(s, paths[0]), paths[1..])
  }

  predicate InSync(s: State) {
    s.mode == s.stored
  }

  /** After mounting, the mode equals the stored value. */
  lemma MountInSync(path: string, stored: Option<Mode>)
    ensures InSync(Mount(path, stored))
    ensures Mount(path, stored).mode == InitMode(path, stored)
  {
  }

  /** Every processed path change keeps the mode equal to the stored value. */
  lemma {:induction false} VisitInSync(s: State, paths: seq<string>)
    requires InSync(s)
    ensures InSync(Visit(s, paths))
    decreases |paths|
  {
    if paths != [] {
      VisitInSync(Effect(s, paths[0]), paths[1..]);
    }
  }

  /** The mode is sticky: after a mode path, paths without a mode prefix
      leave it as it was. */
  lemma {:induction false} ModeIsSticky(s: State, path: string, neutral: seq<string>)
    requires ModeOfPath(path).Some?
    requires forall p :: p in neutral ==> ModeOfPath(p).None?
    ensures Visit(s, [path] + neutral).mode == ModeOfPath(path)
    decreases |neutral|
  {
    assert ([path] + neutral)[1..] == neutral;
    NeutralVisit(Effect(s, path), neutral);
  }

  lemma {:induction false} NeutralVisit(s: State, paths: seq<string>)
    requires forall p :: p in paths ==> ModeOfPath(p).None?
    ensures Visit(s, paths) == s
    decreases |paths|
  {
    if paths != [] {
      assert paths[0] in paths;
      assert forall p :: p in paths[1..] ==> p in paths;
      NeutralVisit(s, paths[1..]);
    }
  }

  /** The routed task paths (`/<taskId>/particles`) do not start with
      `/particles`, so visiting one leaves the mode alone. */
  lemma RoutedTaskPathKeepsMode(s: State)
    ensures Effect(s, "/T-1029/particles") == s
  {
    assert !Text.StartsWith("/T-1029/particles", ParticlesPrefix) by {
      assert "/T-1029/particles"[1] != ParticlesPrefix[1];
    }
    assert !Text.StartsWith("/T-1029/particles", FibersPrefix) by {
      assert "/T-1029/particles"[1] != FibersPrefix[1];
    }
  }

  const DashboardPath: string := "/dashboard"

  /** Highlighting of a navigation item: the dashboard item only on `/` and
      `/dashboard` exactly, every other item on a path prefix. */
  predicate IsActive(path: string, item: string) {
    if item == DashboardPath then path == "/" || path == DashboardPath
    else Text.StartsWith(path, item)
  }

  lemma DashboardActiveExactly(path: string)
    ensures IsActive(path, DashboardPath) <==> path == "/" || path == DashboardPath
    ensures IsActive("/dashboard/tasks", DashboardPath) == false
  {
  }

  /** The item for any other path is active on exactly the paths it prefixes. */
  lemma PrefixActive(path: string, item: string)
    requires item != DashboardPath
    ensures IsActive(path, item) <==> |item| <= |path| && path[..|item|] == item
  {
  }

  predicate IsFineTuning(path: string) {
    Text.StartsWith(path, "/finetune")
  }

  predicate ShowsParticleItem(path: string, mode: Option<Mode>) {
    !IsFineTuning(path) && mode == Some(Particle)
  }

  predicate ShowsFiberItem(path: string, mode: Option<Mode>) {
    !IsFineTuning(path) && mode == Some(Fiber)
  }

  /** The particle and fiber items are never shown together, neither is shown
      without a mode, and the fine-tuning menu hides both. */
  lemma RecognitionItems(path: string, mode: Option<Mode>)
    ensures !(ShowsParticleItem(path, mode) && ShowsFiberItem(path, mode))
    ensures mode.None? ==> !ShowsParticleItem(path, mode) && !ShowsFiberItem(path, mode)
    ensures IsFineTuning(path) ==> !ShowsParticleItem(path, mode) && !ShowsFiberItem(path, mode)
    ensures !IsFineTuning(path) && mode.Some? ==> ShowsParticleItem(path, mode) || ShowsFiberItem(path, mode)
  {
    if mode.Some? {
      assert mode.value == Particle || mode.value == Fiber;
    }
  }

  /** The four items of the fine-tuning menu and the `tab` each selects. */
  datatype FineTuneItem = Configuration | TrainingDashboard | DataManagement | AnnotationStudio

  function TabOf(item: FineTuneItem): (tab: string)
    ensures tab != ""
  {
    match item
    case Configuration => "settings"
    case TrainingDashboard => "training"
    case DataManagement => "data"
    case AnnotationStudio => "annotation"
  }

  lemma TabOfInjective(a: FineTuneItem, b: FineTuneItem)
    ensures TabOf(a) == TabOf(b) <==> a == b
  {
  }

  /** Highlighting in the fine-tuning menu: Configuration also when `tab` is
      absent or empty (`!get('tab')`). */
  predicate FineTuneActive(q: QueryParams.Query, item: FineTuneItem) {
    var tab := QueryParams.Get(q, "tab");
    if item == Configuration then tab == Some("settings") || tab == None || tab == Some("")
    else tab == Some(TabOf(item))
  }

  /** Clicking an item replaces the whole query with `{ tab: ... }`. */
  function ClickFineTune(item: FineTuneItem): (q: QueryParams.Query)
    ensures QueryParams.Get(q, "tab") == Some(TabOf(item))
    ensures forall p :: p in q ==> p.name == "tab"
  {
    QueryParams.FromPairs([("tab", TabOf(item))])
  }

  /** Configuration is active exactly when the tab is `settings` or missing. */
  lemma ConfigurationActive(q: QueryParams.Query)
    ensures FineTuneActive(q, Configuration) <==> QueryParams.GetOr(q, "tab", "settings") == "settings"
  {
  }

  /** At most one fine-tuning item is highlighted, and after a click exactly
      the clicked one is. */
  lemma FineTuneHighlight(q: QueryParams.Query, a: FineTuneItem, b: FineTuneItem)
    ensures FineTuneActive(q, a) && FineTuneActive(q, b) ==> a == b
    ensures FineTuneActive(ClickFineTune(a), b) <==> a == b
  {
  }

  /** The Analysis Hub button: `analysis=true` is set on a copy of the query. */
  function AnalysisHub(q: QueryParams.Query): (r: QueryParams.Query)
    ensures forall p :: p in r <==> p == QueryParams.Param("analysis", "true") || (p in q && p.name != "analysis")
  {
    QueryParams.Set(q, "analysis", "true")
  }

  /** After the Analysis Hub button the hub is highlighted and every other
      parameter reads as before. */
  lemma AnalysisHubKeepsOthers(q: QueryParams.Query, n: string)
    ensures QueryParams.Get(AnalysisHub(q), "analysis") == Some("true")
    ensures n != "analysis" ==> QueryParams.Get(AnalysisHub(q), n) == QueryParams.Get(q, n)
  {
    QueryParams.GetSet(q, "analysis", "true", "analysis");
    QueryParams.GetSet(q, "analysis", "true", n);
  }

  /** Targets of the navigation items. */
  const BackTarget: string := "/dashboard"
  const ParticleItemTarget: string := "/particles"
  const FiberItemTarget: string := "/fibers"
  const ReportsTarget: string := "/reports"

  /** The particle and fiber items link to paths that the prefix tests read
      as their own mode and item; the back item links to the dashboard. No
      page of the route table is served at either item's path. */
  lemma ItemTargetsAnnounceMode()
    ensures ModeOfPath(ParticleItemTarget) == Some(Particle)
    ensures ModeOfPath(FiberItemTarget) == Some(Fiber)
    ensures IsActive(ParticleItemTarget, ParticlesPrefix) && IsActive(FiberItemTarget, FibersPrefix)
    ensures IsActive(BackTarget, DashboardPath)
    ensures forall r :: Routes.ValidRoute(r) ==> Routes.Path(r) != ParticleItemTarget && Routes.Path(r) != FiberItemTarget
  {
    assert FiberItemTarget[1] != ParticlesPrefix[1];
    forall r | Routes.ValidRoute(r)
      ensures Routes.Path(r) != ParticleItemTarget && Routes.Path(r) != FiberItemTarget
    {
      Routes.ModePathsUnrouted(r);
    }
  }

  /** Among the paths the route table serves, only the task pages of a task
      id beginning with `particles` or `fibers` set a mode: `/fibers/particles`
      sets the fiber mode, while `/T-1029/particles` sets none. */
  lemma RoutedModePaths(r: Routes.Route)
    requires Routes.ValidRoute(r)
    ensures ModeOfPath(Routes.Path(r)) == Some(Particle)
            <==> Routes.IsTaskRoute(r) && Text.StartsWith(r.taskId, "particles")
    ensures ModeOfPath(Routes.Path(r)) == Some(Fiber)
            <==> Routes.IsTaskRoute(r) && !Text.StartsWith(r.taskId, "particles") && Text.StartsWith(r.taskId, "fibers")
  {
    var p := Routes.Path(r);
    if Routes.IsTaskRoute(r) {
      assert ParticlesPrefix == "/" + "particles" && FibersPrefix == "/" + "fibers";
      Routes.SegmentPrefix(r.taskId, Routes.TaskSuffix(r), "particles");
      Routes.SegmentPrefix(r.taskId, Routes.TaskSuffix(r), "fibers");
    } else if r.FineTune? {
      assert p[..|FibersPrefix|] == "/finetu";
    } else {
      assert |p| < 2 || (p[1] != 'p' && p[1] != 'f');
      assert !Text.StartsWith(p, ParticlesPrefix) by {
        if |p| >= |ParticlesPrefix| { assert p[..|ParticlesPrefix|][1] == p[1]; }
      }
      assert !Text.StartsWith(p, FibersPrefix) by {
        if |p| >= |FibersPrefix| { assert p[..|FibersPrefix|][1] == p[1]; }
      }
    }
  }
}

=== FILE: sidebar_context.dfy ===
/** The shared sidebar-collapse state and the hook that reads it. */
module SidebarContext {
  import opened Wrappers

  /** What the provider hands to its consumers: the collapsed flag. */
  datatype Context = Context(collapsed: bool)

  /** The provider's state on mount: expanded. */
  const Initial: Context := Context(false)

  function ToggleSidebar(c: Context): (r: Context)
    ensures r.collapsed == !c.collapsed
  {
    Context(!c.collapsed)
  }

  function SetCollapsed(c: Context, value: bool): (r: Context)
    ensures r.collapsed == value
  {
    Context(value)
  }

  /** Toggling twice restores the state. */
  lemma ToggleTwice(c: Context)
    ensures ToggleSidebar(ToggleSidebar(c)) == c
  {
  }

  const OutsideProvider: string := "useSidebar must be used within a SidebarProvider"

  /** `useSidebar`: the enclosing provider's context, or the error the hook
      throws when there is none. */
  function UseSidebar(provided: Option<Context>): (r: Result<Context, string>)
    ensures provided.None? <==> r.Err?
    ensures r.Err? ==> r.error == OutsideProvider
    ensures provided.Some? ==> r == Ok(provided.value)
  {
    match provided
    case None => Err(OutsideProvider)
    case Some(c) => Ok(c)
  }

  /** The collapsed flag seen after a series of toggles is the initial flag
      flipped once per toggle. */
  function ToggleTimes(c: Context, n: nat): Context
    decreases n
  {
    if n == 0 then c else ToggleSidebar(ToggleTimes(c, n - 1))
  }

  lemma {:induction false} ToggleParity(n: nat)
    ensures ToggleTimes(Initial, n).collapsed <==> n % 2 == 1
    decreases n
  {
    if n > 0 {
      ToggleParity(n - 1);
    }
  }
}

=== FILE: task_comparison.dfy ===
/** The task-comparison view: a list of compared tasks that starts with the
    current task, a dropdown of further tasks to add, per-task image
    selections, one violin summary per compared task, and the image list of
    the task whose images are on display. */
module TaskComparison {
  import opened Wrappers
  import Seqs
  import Text
  import Selection

  /** An entry of the compared-task list. Entries added from the dropdown
      carry the catalogue date; the current task carries none. */
  datatype Entry = Entry(id: string, name: string, date: Option<string>, isCurrent: bool)

  /** A task of the catalogue offered in the dropdown. */
  datatype CatalogTask = CatalogTask(id: string, name: string, date: string, count: nat)

  /** An image of a task with its particle count. */
  datatype Image = Image(id: string, status: string, count: nat)

  /** The four catalogue tasks the dropdown draws from. */
  const Catalog: seq<CatalogTask> := [
    CatalogTask("Task-2023-001", "Baseline Analysis", "2023-10-01", 120),
    CatalogTask("Task-2023-002", "High Temp Batch", "2023-10-05", 156),
    CatalogTask("Task-2023-003", "Low Pressure Test", "2023-10-12", 89),
    CatalogTask("Task-2023-004", "Fiber Orientation B", "2023-10-15", 210)
  ]

  /** The entry appended when a catalogue task is picked. */
  function FromCatalog(c: CatalogTask): Entry {
    Entry(c.id, c.name, Some(c.date), false)
  }

  /** The images of each task; the current task shows those under `default`. */
  const ImagesByTask: map<string, seq<Image>> := map[
    "default" := [Image("Img_001.tif", "Completed", 245), Image("Img_002.tif", "Completed", 312),
                  Image("Img_003.tif", "Completed", 156)],
    "Task-2023-001" := [Image("Base_01.tif", "Completed", 100), Image("Base_02.tif", "Completed", 20)],
    "Task-2023-002" := [Image("Heat_01.tif", "Completed", 50), Image("Heat_02.tif", "Completed", 60),
                        Image("Heat_03.tif", "Completed", 46)],
    "Task-2023-003" := [Image("LowP_01.tif", "Completed", 89)],
    "Task-2023-004" := [Image("FibB_01.tif", "Completed", 110), Image("FibB_02.tif", "Completed", 100)]
  ]

  /** The view's state. `query` is the dropdown search text as stored. */
  datatype State = State(
    tasks: seq<Entry>,
    active: string,
    dropdownOpen: bool,
    query: string,
    selection: map<string, seq<string>>)

  /** `taskId || 'current'`: the id of the current task. */
  function CurrentId(taskId: Option<string>): (r: string)
    ensures r != ""
    ensures taskId.Some? && taskId.value != "" ==> r == taskId.value
  {
    if taskId.Some? && taskId.value != "" then taskId.value else "current"
  }

  /** The current task's entry, named `taskId || 'Current Task'`. */
  function CurrentEntry(taskId: Option<string>): Entry {
    Entry(CurrentId(taskId),
          if taskId.Some? && taskId.value != "" then taskId.value else "Current Task",
          None, true)
  }

  /** The state on mount: only the current task is compared and its images
      are on display; nothing is selected. */
  function Init(taskId: Option<string>): (s: State)
    ensures |s.tasks| == 1 && s.tasks[0].isCurrent
    ensures s.active == s.tasks[0].id
    ensures !s.dropdownOpen && s.selection == map[]
  {
    State([CurrentEntry(taskId)], CurrentId(taskId), false, "", map[])
  }

  /** Some compared entry has this id. */
  predicate Compared(tasks: seq<Entry>, id: string) {
    exists e :: e in tasks && e.id == id
  }

  /** `handleAddTask(task)`: appends the task unless its id is already
      compared; the dropdown closes either way. */
  function AddTask(s: State, t: Entry): (r: State)
    ensures !r.dropdownOpen
    ensures Compared(s.tasks, t.id) ==> r.tasks == s.tasks
    ensures !Compared(s.tasks, t.id) ==> r.tasks == s.tasks + [t]
    ensures r.active == s.active && r.selection == s.selection && r.query == s.query
  {
    if Compared(s.tasks, t.id) then s.(dropdownOpen := false)
    else s.(tasks := s.tasks + [t], dropdownOpen := false)
  }

  function IdIsNot(id: string): Entry -> bool {
    (e: Entry) => e.id != id
  }

  /** `handleRemoveTask(id)`: drops the entries with that id; when they held
      the image display, the display moves to the id of the first entry of
      the list before removal (`''` for an empty list). */
  function RemoveTask(s: State, id: string): (r: State)
    ensures forall e :: e in r.tasks <==> e in s.tasks && e.id != id
    ensures !Compared(r.tasks, id)
    ensures s.active != id ==> r.active == s.active
    ensures s.active == id && |s.tasks| > 0 ==> r.active == s.tasks[0].id
    ensures s.active == id && |s.tasks| == 0 ==> r.active == ""
    ensures r.dropdownOpen == s.dropdownOpen && r.selection == s.selection
  {
    var kept := Seqs.Filter(s.tasks, IdIsNot(id));
    var active := if s.active == id then (if |s.tasks| > 0 then s.tasks[0].id else "") else s.active;
    s.(tasks := kept, active := active)
  }

  /** Removal keeps the other entries in their order. */
  lemma RemoveKeepsOrder(a: seq<Entry>, b: seq<Entry>, s: State, id: string)
    requires s.tasks == a + b
    ensures RemoveTask(s, id).tasks == RemoveTask(s.(tasks := a), id).tasks + RemoveTask(s.(tasks := b), id).tasks
  {
    Seqs.FilterAppend(a, b, IdIsNot(id));
  }

  /** `handleToggleImage(taskId, imgId)`: toggles the image in that task's
      selection (an absent selection counts as empty); the selections of the
      other tasks are unchanged. */
  function ToggleImage(s: State, taskId: string, imgId: string): (r: State)
    ensures taskId in r.selection
    ensures r.selection.Keys == s.selection.Keys + {taskId}
    ensures forall k :: k in s.selection && k != taskId ==> r.selection[k] == s.selection[k]
    ensures imgId in r.selection[taskId] <==> !(taskId in s.selection && imgId in s.selection[taskId])
    ensures forall x :: x != imgId ==>
              (x in r.selection[taskId] <==> taskId in s.selection && x in s.selection[taskId])
    ensures r.tasks == s.tasks && r.active == s.active
  {
    var current := if taskId in s.selection then s.selection[taskId] else [];
    s.(selection := s.selection[taskId := Selection.Toggle(current, imgId)])
  }

  /** Toggling the same image twice gives back the same set of images for
      that task and leaves every other task's selection as it was. */
  lemma ToggleImageTwice(s: State, taskId: string, imgId: string)
    requires taskId in s.selection && Seqs.NoDup(s.selection[taskId])
    ensures var r := ToggleImage(ToggleImage(s, taskId, imgId), taskId, imgId);
            r.selection.Keys == s.selection.Keys
            && Seqs.Elems(r.selection[taskId]) == Seqs.Elems(s.selection[taskId])
            && (forall k :: k in s.selection && k != taskId ==> r.selection[k] == s.selection[k])
  {
    Selection.ToggleTwice(s.selection[taskId], imgId);
  }

  /** Clicking a compared entry puts its images on display. */
  function ShowImagesOf(s: State, id: string): (r: State)
    ensures r.active == id && r.tasks == s.tasks
  {
    s.(active := id)
  }

  /** Typing into the dropdown search: the text is stored lower-cased. */
  function TypeQuery(s: State, input: string): (r: State)
    ensures r.query == Text.Lower(input)
    ensures r.tasks == s.tasks
  {
    s.(query := Text.Lower(input))
  }

  /** Opening or closing the dropdown with its button. */
  function ToggleDropdown(s: State): (r: State)
    ensures r.dropdownOpen == !s.dropdownOpen && r.tasks == s.tasks
  {
    s.(dropdownOpen := !s.dropdownOpen)
  }

  /** The dropdown test: not yet compared, and the stored query occurs in the
      lower-cased name or id. */
  predicate Offered(tasks: seq<Entry>, query: string, c: CatalogTask) {
    !Compared(tasks, c.id)
    && (Text.Includes(Text.Lower(c.name), query) || Text.Includes(Text.Lower(c.id), query))
  }

  function OfferedTest(tasks: seq<Entry>, query: string): CatalogTask -> bool {
    (c: CatalogTask) => Offered(tasks, query, c)
  }

  /** The dropdown's candidate list, in catalogue order. */
  function Candidates(catalog: seq<CatalogTask>, tasks: seq<Entry>, query: string): (r: seq<CatalogTask>)
    ensures forall c :: c in r <==>
              (c in catalog && !Compared(tasks, c.id)
               && (Text.Includes(Text.Lower(c.name), query) || Text.Includes(Text.Lower(c.id), query)))
  {
    Seqs.Filter(catalog, OfferedTest(tasks, query))
  }

  /** The candidates keep the catalogue's order: listing two parts of a
      catalogue gives the candidates of each part, one after the other. */
  lemma CandidatesAppend(a: seq<CatalogTask>, b: seq<CatalogTask>, tasks: seq<Entry>, query: string)
    ensures Candidates(a + b, tasks, query) == Candidates(a, tasks, query) + Candidates(b, tasks, query)
  {
    Seqs.FilterAppend(a, b, OfferedTest(tasks, query));
  }

  /** Picking any offered candidate appends it: the candidates are never
      already compared. */
  lemma AddCandidateAppends(s: State, c: CatalogTask)
    requires c in Candidates(Catalog, s.tasks, s.query)
    ensures AddTask(s, FromCatalog(c)).tasks == s.tasks + [FromCatalog(c)]
  {
  }

  /** With an empty query every catalogue task not yet compared is offered. */
  lemma EmptyQueryOffersAll(tasks: seq<Entry>)
    ensures forall c :: c in Candidates(Catalog, tasks, "") <==> c in Catalog && !Compared(tasks, c.id)
  {
    forall c | c in Catalog
      ensures Text.Includes(Text.Lower(c.name), "")
    {
      Text.IncludesEmpty(Text.Lower(c.name));
    }
  }

  /** The summary behind one violin of the chart; the density profile is not
      modelled. */
  datatype Violin = Violin(id: string, name: string, mean: int, min: int, max: int)

  /** `generateViolinData(id, name)`: the seed is the total length of id and
      name; the mean lies in 5..9 and the spread in 2..4. */
  function ViolinOf(id: string, name: string): (v: Violin)
    ensures v.id == id && v.name == name
    ensures 5 <= v.mean <= 9
    ensures 2 <= v.mean - v.min <= 4 && v.max - v.mean == v.mean - v.min
    ensures 1 <= v.min < v.mean < v.max <= 13
  {
    var seed := |id| + |name|;
    var mean := 5 + seed % 5;
    var spread := 2 + seed % 3;
    Violin(id, name, mean, if mean - spread > 0 then mean - spread else 0, mean + spread)
  }

  /** `chartData`: one violin per compared task, in the same order. */
  function ChartData(tasks: seq<Entry>): (r: seq<Violin>)
    ensures |r| == |tasks|
    ensures forall i :: 0 <= i < |tasks| ==> r[i].id == tasks[i].id && r[i].name == tasks[i].name
    ensures forall i :: 0 <= i < |tasks| ==> r[i] == ViolinOf(tasks[i].id, tasks[i].name)
    ensures forall i :: 0 <= i < |tasks| ==> 1 <= r[i].min < r[i].mean < r[i].max
  {
    seq(|tasks|, i requires 0 <= i < |tasks| => ViolinOf(tasks[i].id, tasks[i].name))
  }

  /** The chart follows the list: the violins of a concatenated list are
      those of each part, one after the other. */
  lemma ChartDataAppend(a: seq<Entry>, b: seq<Entry>)
    ensures ChartData(a + b) == ChartData(a) + ChartData(b)
  {
    var l, r := ChartData(a + b), ChartData(a) + ChartData(b);
    forall i | 0 <= i < |l|
      ensures l[i] == r[i]
    {
      if i < |a| {
        assert (a + b)[i] == a[i];
      } else {
        assert (a + b)[i] == b[i - |a|];
      }
    }
  }

  /** Adding a task not yet compared puts its violin at the end of the
      chart; adding one already compared leaves the chart alone. */
  lemma AddTaskExtendsChart(s: State, t: Entry)
    ensures Compared(s.tasks, t.id) ==> ChartData(AddTask(s, t).tasks) == ChartData(s.tasks)
    ensures !Compared(s.tasks, t.id) ==> ChartData(AddTask(s, t).tasks) == ChartData(s.tasks) + [ViolinOf(t.id, t.name)]
  {
    if !Compared(s.tasks, t.id) {
      ChartDataAppend(s.tasks, [t]);
    }
  }

  /** `activeDisplayImages`: the `default` images for the current task,
      otherwise the task's own images, or none. */
  function DisplayImages(active: string, taskId: Option<string>): (r: seq<Image>)
    ensures active == CurrentId(taskId) ==> r == ImagesByTask["default"]
    ensures active != CurrentId(taskId) && active !in ImagesByTask ==> r == []
    ensures active != CurrentId(taskId) && active in ImagesByTask ==> r == ImagesByTask[active]
  {
    if active == CurrentId(taskId) then ImagesByTask["default"]
    else if active in ImagesByTask then ImagesByTask[active]
    else []
  }

  /** Compared ids are pairwise distinct. */
  ghost predicate UniqueIds(tasks: seq<Entry>) {
    Seqs.Pairwise(tasks, (a: Entry, b: Entry) => a.id != b.id)
  }

  /** The user actions of the view. */
  datatype Action =
    | Add(entry: Entry)
    | Remove(id: string)
    | ToggleImg(taskId: string, imgId: string)
    | Show(id: string)
    | Type(text: string)
    | Dropdown

  function Step(s: State, a: Action): State {
    match a
    case Add(e) => AddTask(s, e)
    case Remove(id) => RemoveTask(s, id)
    case ToggleImg(t, i) => ToggleImage(s, t, i)
    case Show(id) => ShowImagesOf(s, id)
    case Type(text) => TypeQuery(s, text)
    case Dropdown => ToggleDropdown(s)
  }

  function Run(s: State, actions: seq<Action>): State
    decreases |actions|
  {
    if actions == [] then s else Run(Step(s, actions[0]), actions[1..])
  }

  /** One step keeps the compared ids unique, whatever the action. */
  lemma StepUnique(s: State, a: Action)
    requires UniqueIds(s.tasks)
    ensures UniqueIds(Step(s, a).tasks)
  {
    match a
    case Add(e) =>
      if !Compared(s.tasks, e.id) {
        var t := s.tasks + [e];
        forall i, j | 0 <= i < j < |t|
          ensures t[i].id != t[j].id
        {
          if j == |t| - 1 {
            assert t[i] in s.tasks;
          }
        }
      }
    case Remove(id) =>
      Seqs.FilterPairwise(s.tasks, IdIsNot(id), (a: Entry, b: Entry) => a.id != b.id);
    case ToggleImg(_, _) =>
    case Show(_) =>
    case Type(_) =>
    case Dropdown =>
  }

  /** Starting from the current task alone, compared ids stay unique under any
      sequence of actions. */
  lemma {:induction false} RunUnique(s: State, actions: seq<Action>)
    requires UniqueIds(s.tasks)
    ensures UniqueIds(Run(s, actions).tasks)
    decreases |actions|
  {
    if actions != [] {
      StepUnique(s, actions[0]);
      RunUnique(Step(s, actions[0]), actions[1..]);
    }
  }

  lemma InitUnique(taskId: Option<string>)
    ensures UniqueIds(Init(taskId).tasks)
  {
  }

  /** The current task stays first: the list starts with the current entry,
      and the later entries are not current. */
  ghost predicate HeadIsCurrent(s: State, cur: Entry) {
    |s.tasks| > 0 && s.tasks[0] == cur && cur.isCurrent
    && (forall i :: 0 < i < |s.tasks| ==> !s.tasks[i].isCurrent)
    && UniqueIds(s.tasks)
  }

  /** What the interface offers: a remove button only on non-current entries,
      and additions only of non-current entries. */
  predicate Available(s: State, a: Action) {
    match a
    case Add(e) => !e.isCurrent
    case Remove(id) => exists e :: e in s.tasks && e.id == id && !e.isCurrent
    case _ => true
  }

  /** Under the available actions the current task stays at the head of the
      list, and removing the entry on display moves the display to the
      current task. */
  lemma StepKeepsCurrent(s: State, cur: Entry, a: Action)
    requires HeadIsCurrent(s, cur) && Available(s, a)
    ensures HeadIsCurrent(Step(s, a), cur)
    ensures a.Remove? && s.active == a.id ==> Step(s, a).active == cur.id
  {
    StepUnique(s, a);
    match a
    case Add(e) =>
      AddKeepsCurrent(s, cur, e);
    case Remove(id) =>
      RemoveKeepsCurrent(s, cur, id);
    case ToggleImg(_, _) =>
    case Show(_) =>
    case Type(_) =>
    case Dropdown =>
  }

  lemma AddKeepsCurrent(s: State, cur: Entry, e: Entry)
    requires HeadIsCurrent(s, cur) && !e.isCurrent
    ensures var t := AddTask(s, e).tasks;
            |t| > 0 && t[0] == cur && forall i :: 0 < i < |t| ==> !t[i].isCurrent
  {
  }

  /** Removing a non-current entry keeps the current one first, and the
      remaining entries are not current. */
  lemma RemoveKeepsCurrent(s: State, cur: Entry, id: string)
    requires HeadIsCurrent(s, cur)
    requires exists e :: e in s.tasks && e.id == id && !e.isCurrent
    ensures var t := RemoveTask(s, id).tasks;
            |t| > 0 && t[0] == cur && forall i :: 0 < i < |t| ==> !t[i].isCurrent
    ensures s.active == id ==> RemoveTask(s, id).active == cur.id
  {
    var e :| e in s.tasks && e.id == id && !e.isCurrent;
    assert cur.id != id by {
      var k :| 0 <= k < |s.tasks| && s.tasks[k] == e;
      assert k != 0;
    }
    FilterKeepsHead(s.tasks, cur, id);
  }

  lemma FilterKeepsHead(tasks: seq<Entry>, cur: Entry, id: string)
    requires |tasks| > 0 && tasks[0] == cur && cur.id != id
    requires forall i :: 0 < i < |tasks| ==> !tasks[i].isCurrent
    ensures var t := Seqs.Filter(tasks, IdIsNot(id));
            |t| > 0 && t[0] == cur && forall i :: 0 < i < |t| ==> !t[i].isCurrent
  {
    var rest := Seqs.Filter(tasks[1..], IdIsNot(id));
    var t := Seqs.Filter(tasks, IdIsNot(id));
    assert t == [cur] + rest;
    forall i | 0 < i < |t|
      ensures !t[i].isCurrent
    {
      assert t[i] == rest[i - 1];
      assert rest[i - 1] in tasks[1..];
    }
  }

  /** Removing the compared task whose images are on display brings back
      the current task's (`default`) images. */
  lemma RemovingDisplayedShowsDefault(s: State, taskId: Option<string>, id: string)
    requires HeadIsCurrent(s, CurrentEntry(taskId))
    requires exists e :: e in s.tasks && e.id == id && !e.isCurrent
    requires s.active == id
    ensures DisplayImages(RemoveTask(s, id).active, taskId) == ImagesByTask["default"]
  {
    RemoveKeepsCurrent(s, CurrentEntry(taskId), id);
  }

  ghost predicate AllAvailable(s: State, actions: seq<Action>)
    decreases |actions|
  {
    actions == [] || (Available(s, actions[0]) && AllAvailable(Step(s, actions[0]), actions[1..]))
  }

  /** From mount, under any sequence of available actions, the current task
      is still compared and still first. */
  lemma {:induction false} RunKeepsCurrent(s: State, cur: Entry, actions: seq<Action>)
    requires HeadIsCurrent(s, cur) && AllAvailable(s, actions)
    ensures HeadIsCurrent(Run(s, actions), cur)
    decreases |actions|
  {
    if actions != [] {
      StepKeepsCurrent(s, cur, actions[0]);
      RunKeepsCurrent(Step(s, actions[0]), cur, actions[1..]);
    }
  }

  lemma InitHeadIsCurrent(taskId: Option<string>)
    ensures HeadIsCurrent(Init(taskId), CurrentEntry(taskId))
  {
  }
}

=== FILE: text.dfy ===
/** String helpers with the meaning of JavaScript's `toLowerCase`,
    `startsWith` and `includes`. Lower-casing is modelled on ASCII letters only. */
module Text {

  /** Lower-cases an ASCII capital; every other character is kept. */
  function LowerChar(c: char): char {
    if 'A' <= c <= 'Z' then (c as int + 32) as char else c
  }

  predicate IsUpper(c: char) {
    'A' <= c <= 'Z'
  }

  /** `s.toLowerCase()`. */
  function Lower(s: string): (r: string)
    ensures |r| == |s|
    ensures forall i :: 0 <= i < |s| ==> !IsUpper(r[i])
    ensures forall i :: 0 <= i < |s| && !IsUpper(s[i]) ==> r[i] == s[i]
  {
    seq(|s|, i requires 0 <= i < |s| => LowerChar(s[i]))
  }

  /** Lower-casing twice is lower-casing once. */
  lemma LowerIdempotent(s: string)
    ensures Lower(Lower(s)) == Lower(s)
  {
  }

  /** `s.startsWith(p)`. */
  predicate StartsWith(s: string, p: string) {
    |p| <= |s| && s[..|p|] == p
  }

  /** `s.includes(t)`, by scanning the start positions left to right. */
  predicate Includes(s: string, t: string)
    decreases |s|
  {
    StartsWith(s, t) || (|s| > 0 && Includes(s[1..], t))
  }

  /** `t` occurs in `s` starting at position `i`. */
  ghost predicate OccursAt(s: string, t: string, i: int) {
    0 <= i <= |s| - |t| && s[i..i + |t|] == t
  }

  /** `t` occurs in `s` at some position. */
  ghost predicate Occurs(s: string, t: string) {
    exists i :: OccursAt(s, t, i)
  }

  /** The scan finds `t` exactly when `t` occurs somewhere in `s`. */
  lemma {:induction false} IncludesIffOccurs(s: string, t: string)
    ensures Includes(s, t) <==> Occurs(s, t)
    decreases |s|
  {
    if StartsWith(s, t) {
      assert OccursAt(s, t, 0);
    } else if |s| > 0 {
      IncludesIffOccurs(s[1..], t);
      if Occurs(s[1..], t) {
        var i :| OccursAt(s[1..], t, i);
        assert s[i + 1..i + 1 + |t|] == s[1..][i..i + |t|];
        assert OccursAt(s, t, i + 1);
      }
      if Occurs(s, t) {
        var i :| OccursAt(s, t, i);
        assert i != 0;
        assert s[1..][i - 1..i - 1 + |t|] == s[i..i + |t|];
        assert OccursAt(s[1..], t, i - 1);
      }
    }
  }

  /** Every string includes the empty string. */
  lemma IncludesEmpty(s: string)
    ensures Includes(s, "")
  {
    assert StartsWith(s, "");
  }

  /** Every string includes itself. */
  lemma IncludesSelf(s: string)
    ensures Includes(s, s)
  {
    assert StartsWith(s, s);
  }
}

=== FILE: upload.dfy ===
/** The new-analysis page: the chosen analysis type, the chosen analysis
    mode within it, and where "start" leads. */
module Upload {
  import opened Wrappers
  import Sidebar

  datatype TaskType = ParticleType | FiberType

  /** One analysis mode of a type: its key and button title. */
  datatype SubTask = SubTask(id: string, title: string)

  /** The modes each type offers, in declaration order. */
  function SubTasksOf(t: TaskType): (modes: seq<SubTask>)
    ensures |modes| > 0
    ensures t == ParticleType ==> |modes| == 4 && modes[0].id == "default"
    ensures t == FiberType ==> |modes| == 2 && modes[0].id == "coarse"
  {
    match t
    case ParticleType => [
      SubTask("default", "Default Mode"),
      SubTask("crack", "Crack Analysis"),
      SubTask("void", "Void Analysis"),
      SubTask("tem", "TEM Overlapping")
    ]
    case FiberType => [
      SubTask("coarse", "Coarse Fiber"),
      SubTask("fine", "Fine Fiber")
    ]
  }

  /** `subTasks[key]`: the mode of a type with that key, if any. */
  function Lookup(t: TaskType, key: string): (r: Option<SubTask>)
    ensures r.Some? <==> exists i :: 0 <= i < |SubTasksOf(t)| && SubTasksOf(t)[i].id == key
    ensures r.Some? ==> r.value in SubTasksOf(t) && r.value.id == key
  {
    FindMode(SubTasksOf(t), key)
  }

  function FindMode(modes: seq<SubTask>, key: string): (r: Option<SubTask>)
    ensures r.Some? <==> exists i :: 0 <= i < |modes| && modes[i].id == key
    ensures r.Some? ==> r.value in modes && r.value.id == key
    decreases |modes|
  {
    if modes == [] then None
    else if modes[0].id == key then Some(modes[0])
    else
      var r := FindMode(modes[1..], key);
      assert forall i :: 1 <= i < |modes| ==> modes[i] == modes[1..][i - 1];
      r
  }

  datatype State = State(taskType: TaskType, subTask: string)

  const Init: State := State(ParticleType, "default")

  /** The chosen mode is one the chosen type offers. */
  predicate Valid(s: State) {
    Lookup(s.taskType, s.subTask).Some?
  }

  /** The two type cards and the mode buttons of the current type, by
      position. */
  datatype Click = ParticleCard | FiberCard | ModeButton(index: nat)

  /** A card selects its type and that type's first mode; a mode button
      selects the mode it shows. Mode buttons exist only for the current
      type, so a position past them is no button at all. */
  function Step(s: State, c: Click): (r: State)
    ensures c == ParticleCard ==> r == State(ParticleType, "default")
    ensures c == FiberCard ==> r == State(FiberType, "coarse")
    ensures c.ModeButton? && c.index < |SubTasksOf(s.taskType)| ==>
              r.taskType == s.taskType && r.subTask == SubTasksOf(s.taskType)[c.index].id
    ensures c.ModeButton? && c.index >= |SubTasksOf(s.taskType)| ==> r == s
  {
    match c
    case ParticleCard => State(ParticleType, "default")
    case FiberCard => State(FiberType, "coarse")
    case ModeButton(i) =>
      if i < |SubTasksOf(s.taskType)| then s.(subTask := SubTasksOf(s.taskType)[i].id) else s
  }

  function Run(s: State, clicks: seq<Click>): State
    decreases |clicks|
  {
    if clicks == [] then s else Run(Step(s, clicks[0]), clicks[1..])
  }

  lemma InitValid()
    ensures Valid(Init)
  {
    assert SubTasksOf(ParticleType)[0].id == "default";
  }

  /** The type and mode stay consistent under any clicks from mount on. */
  lemma {:induction false} RunValid(s: State, clicks: seq<Click>)
    requires Valid(s)
    ensures Valid(Run(s, clicks))
    decreases |clicks|
  {
    if clicks != [] {
      StepPreservesValid(s, clicks[0]);
      RunValid(Step(s, clicks[0]), clicks[1..]);
    }
  }

  lemma StepPreservesValid(s: State, c: Click)
    requires Valid(s)
    ensures Valid(Step(s, c))
  {
    match c
    case ParticleCard =>
      assert SubTasksOf(ParticleType)[0].id == "default";
    case FiberCard =>
      assert SubTasksOf(FiberType)[0].id == "coarse";
    case ModeButton(i) =>
      if i < |SubTasksOf(s.taskType)| {
        assert SubTasksOf(s.taskType)[i].id == Step(s, c).subTask;
      }
  }

  /** The text of the description panel. */
  datatype Panel = Describes(mode: SubTask) | SelectAMode

  function PanelOf(s: State): (p: Panel)
    ensures p.SelectAMode? <==> !Valid(s)
    ensures p.Describes? ==> p.mode.id == s.subTask && p.mode in SubTasksOf(s.taskType)
  {
    match Lookup(s.taskType, s.subTask)
    case Some(m) => Describes(m)
    case None => SelectAMode
  }

  /** The "Select a mode" fallback is never shown on a reachable state. */
  lemma FallbackUnreachable(clicks: seq<Click>)
    ensures PanelOf(Run(Init, clicks)).Describes?
  {
    InitValid();
    RunValid(Init, clicks);
  }

  /** "Start" navigates to `/particles` or `/fibers` by the chosen type, a
      path the sidebar's prefix test reads as that type's mode. The route
      table serves no page at either path (`Routes.ModePathsUnrouted`). */
  function StartTarget(s: State): (path: string)
    ensures path == "/particles" <==> s.taskType == ParticleType
    ensures path == "/fibers" <==> s.taskType == FiberType
    ensures s.taskType == ParticleType ==> Sidebar.ModeOfPath(path) == Some(Sidebar.Particle)
    ensures s.taskType == FiberType ==> Sidebar.ModeOfPath(path) == Some(Sidebar.Fiber)
  {
    assert "/fibers"[1] != Sidebar.ParticlesPrefix[1];
    match s.taskType
    case ParticleType => "/particles"
    case FiberType => "/fibers"
  }

  const BackTarget: string := "/dashboard"
}

=== FILE: wrappers.dfy ===
/** Optional values and results, as used by the model for `undefined`/`null`
    lookups and for the one thrown error of the application. */
module Wrappers {

  datatype Option<+T> = None | Some(value: T) {

    /** The wrapped value, or `default` when there is none. */
    function GetOr(default: T): T {
      match this
      case Some(v) => v
      case None => default
    }
  }

  datatype Result<+T, +E> = Ok(value: T) | Err(error: E)
}
